=== FILE: README.md ===
# Goon event engine — Dafny model

This project models the in-process event engine of `goon-module.c`. A context
owns a registry of named handlers, a bounded FIFO event queue, a 64-slot
key/value cache and an object pool. A drain loop (`goon_context_process_events`)
pops every queued event and calls each enabled handler on it, from the head of
the registry, while counting calls and errors. The model also covers the
fixed-capacity stack, the lifecycle setters, the worker, the context helpers
(emit, batches, queue clearing, statistics reset), the configuration store and
five of the source's example handlers: the cache writer, the validator, the
prefix filter, the upper-casing transformer and the duplicate detector.

Each component is an immutable datatype, and each operation is a pure function.
A state-changing operation returns a `Step` (new state plus the C status code).
A lookup returns the value it finds, as an `Option`, together with the new state
when the lookup changes it (a cache get refreshes a timestamp). The modules are:

| module | file | models |
|---|---|---|
| `Wrappers` | wrappers.dfy | `Option`, which stands for a pointer that may be NULL and for a lookup that may miss |
| `Codes` | codes.dfy | the status codes `GOON_SUCCESS` … `GOON_ERROR_UNDERFLOW` (0 … -7) and `Step` |
| `Search` | search.dfy | the first-match linear scan that every table repeats |
| `Text` | text.dfy | bounded C strings (`strncpy` into a 128-byte buffer) and `strncmp` |
| `Events` | events.dfy | events and payloads |
| `Queues` | queue.dfy | `goon_queue_*` |
| `Stacks` | stack.dfy | `goon_stack_*` |
| `Caches` | cache.dfy | `goon_cache_*` |
| `Pools` | pool.dfy | `goon_pool_*` |
| `Handlers` | handlers.dfy | `goon_handler_*` and the example handlers |
| `Registry` | registry.dfy | register, find and unregister over the handler list |
| `Links` | links.dfy | the handler list's `next` pointers, where registering a handler twice closes a cycle |
| `Dispatch` | dispatch.dfy | the drain loop |
| `Contexts` | context.dfy | the context, lifecycle and context helpers |
| `Workers` | worker.dfy | `goon_worker_*` |
| `Config` | config.dfy | `goon_config_*` |

Modelling choices:
- `time(NULL)` becomes an explicit `now` parameter. One drain uses one `now`.
- A fresh allocation from the pool's allocator becomes the parameter `newObj`. The caller must supply an address that the pool does not already hold, which is what the allocator guarantees.
- Identifiers of events, handlers and contexts are parameters instead of process-wide counters.
- A handler's callback and its user data together form one value of the closed type `HandlerKind`. `Constant(code)` stands for any callback that returns a fixed code and has no side effects. Callbacks cannot emit events, so the drain ends when the queue is empty.
- Strings are sequences of characters without NUL. The end of a sequence acts as the terminating NUL.
- One character stands for one byte of a C string, so lengths, cuts at 127 or 4095 and comparisons count bytes. Multi-byte encodings such as UTF-8 are not modelled; the C code may cut such a name in the middle of a character.
- An event's priority is a plain `int`, because the C enum can hold any value after a cast. This keeps the validator's range check meaningful.

The model follows the code:
- `goon_handler_create` rejects a NULL name or a NULL callback. It accepts an empty name.
- `start`, `pause`, `resume` and `set_state` assign their state with no check of the state they leave.
- `goon_context_clear_queue` returns `GOON_SUCCESS`, not the number of events cleared.
- `goon_pool_release` of an object that is already free still succeeds.

## Model

| member | source | states |
|---|---|---|
| Search.FirstIndex | goon-module.c:491-492 | the first position whose key matches, with no match before it; none exactly when no element matches. The cache, configuration, registry and pool scans all use it |
| Text.Bounded | goon-module.c:270-271 | a copied name keeps at most 127 characters, is a prefix of the original, and is the original when that fits |
| Text.BoundedIdempotent | goon-module.c:270-271 | copying a name that was already cut keeps it as it is |
| Text.StrNEqualIsPrefix | goon-module.c:1133 | `strncmp(name, prefix, strlen(prefix)) == 0` holds exactly when `prefix` is a prefix of `name` |
| Events.Create | goon-module.c:262-279 | a new event has the cut name, the given priority, the creation time and no payload |
| Queues.Create | goon-module.c:311-324 | a new queue is empty and valid; a capacity of 0 becomes 1024 |
| Queues.Size | goon-module.c:377-380 | the number of queued events, never above the capacity of a valid queue |
| Queues.IsEmpty | goon-module.c:382-385 | true exactly when a pop would return nothing |
| Queues.Push | goon-module.c:339-359 | overflow with the queue unchanged exactly when size >= capacity; otherwise the event is appended at the tail |
| Queues.Pop | goon-module.c:361-375 | returns the head and leaves the rest in order; an empty queue gives nothing and is unchanged |
| Queues.RunIsFifo | goon-module.c:339-375 | over any interleaving of pushes and pops, queued-before plus accepted equals popped plus still-queued, so events leave in push order |
| Queues.RunKeepsBound | goon-module.c:343-346 | no sequence of operations takes a valid queue over its capacity |
| Queues.CapacityTwoScenario | goon-module.c:339-375 | a queue of capacity 2 takes two events and refuses a third; after one pop it hands back the first event and takes the third |
| Stacks.Create | goon-module.c:391-409 | a new stack is empty and valid; a capacity of 0 becomes 512 |
| Stacks.Size | goon-module.c:445-448 | the number of items, never above the capacity of a valid stack |
| Stacks.IsEmpty | goon-module.c:450-453 | true exactly when a pop would return nothing |
| Stacks.Push | goon-module.c:421-431 | overflow with the stack unchanged exactly when full; otherwise the item becomes the top |
| Stacks.Pop | goon-module.c:433-437 | returns the top and keeps the rest; an empty stack gives nothing |
| Stacks.Peek | goon-module.c:439-443 | returns what a pop would return |
| Stacks.PopUndoesPush | goon-module.c:421-437 | a pop right after a successful push returns the item and restores the stack |
| Caches.Create | goon-module.c:459-473 | a new cache is valid and holds no key |
| Caches.Oldest | goon-module.c:510-520 | the eviction scan picks a slot with the smallest timestamp; every earlier slot is strictly younger, so ties go to the lowest index |
| Caches.OldestIsUnique | goon-module.c:515-520 | at most one slot satisfies that condition, so the eviction choice is determined |
| Caches.Set | goon-module.c:487-553 | a NULL key or value gives the null-pointer code and no change. An existing key is overwritten in its own slot with the count unchanged. A new key is appended below 64 entries. At 64 entries it replaces the oldest slot. The cache stays valid with unique keys |
| Caches.SetAsWritten | goon-module.c:487-553 | the set as written, comparing the uncut key. NULL gives the null-pointer code and no change. The first slot holding the uncut key gets the value and timestamp. A key that no slot holds uncut goes, cut, into a new slot below capacity, or in place of the oldest slot at capacity |
| Caches.Get | goon-module.c:555-569 | a hit exactly when the key is held; it returns that key's value and refreshes only that slot's timestamp; a miss changes nothing |
| Caches.GetAsWritten | goon-module.c:555-569 | the get as written: a hit exactly when a slot holds the uncut key. The first such slot answers and only its timestamp is refreshed. A miss changes nothing |
| Caches.Remove | goon-module.c:571-594 | not-found with no change exactly when the key is absent; otherwise the slot is removed, later slots shift down in order, and the key is gone |
| Caches.RemoveAsWritten | goon-module.c:571-594 | the remove as written: not-found with no change exactly when no slot holds the uncut key. Otherwise the first slot holding it goes and the later slots move down in order |
| Caches.AgreeOnShortKeys | goon-module.c:487-594 | for a key under 128 characters, the corrected set, get and remove give the same results as the code as written |
| Caches.Clear | goon-module.c:596-607 | the cache becomes empty and valid |
| Caches.SetThenGet | goon-module.c:487-569 | a get right after a set returns the value just set |
| Caches.SetTwiceKeepsCount | goon-module.c:491-505 | repeating the same set leaves the cache, and so its count, as the first set left it |
| Caches.RemoveThenGetMisses | goon-module.c:555-594 | a removed key is no longer found |
| Caches.GetProtectsFromEviction | goon-module.c:560-561 | an entry read at a time later than all other timestamps is no longer the eviction candidate |
| Caches.AsWrittenLosesLongKeys | goon-module.c:491-492 | as written, a 128-character key is stored cut but compared uncut: a second set duplicates the key, a get misses, and a remove reports not-found |
| Pools.Create | goon-module.c:613-637 | a new pool is empty and valid; a capacity of 0 becomes 128 |
| Pools.Acquire | goon-module.c:653-680 | returns the first free slot's object and marks only it busy. With every slot busy, it allocates a new busy slot only while size < capacity. Otherwise it returns nothing and the pool is unchanged. The pool stays valid |
| Pools.Release | goon-module.c:682-693 | NULL gives the null-pointer code; an unknown object gives not-found; otherwise only that slot becomes free (already-free objects included) |
| Pools.AcquireAll | goon-module.c:653-680 | a series of acquires keeps the pool valid and gives one answer per request |
| Pools.BusyPoolFillsThenRefuses | goon-module.c:664-680 | with no release, a fully busy pool grows by one new object per acquire until full, and then any acquire fails |
| Pools.ReleaseThenAcquire | goon-module.c:653-693 | a released object, with no other free slot, is the one the next acquire hands out |
| Pools.ReuseIgnoresSizeHint | goon-module.c:656-661 | a reused object may have been allocated smaller than the size now requested |
| Handlers.Create | goon-module.c:699-723 | NULL name or callback gives no handler; otherwise an enabled handler with the cut name and zero statistics |
| Handlers.SetEnabled | goon-module.c:730-740 | enable/disable set the flag and change nothing else |
| Handlers.Validate | goon-module.c:1111-1125 | success exactly for a non-empty name and a priority from LOW to CRITICAL; otherwise the invalid-parameter code |
| Handlers.FilterByPrefix | goon-module.c:1127-1140 | no prefix passes; otherwise success exactly when the prefix starts the event name, else the generic error |
| Handlers.NulIndex | goon-module.c:1167 | `strlen` of a buffer: the first NUL, or the end |
| Handlers.UpperUntilNul | goon-module.c:1167-1173 | bytes before the first NUL are upper-cased ASCII, the rest are kept, and the length is unchanged |
| Handlers.UpperUntilNulIdempotent | goon-module.c:1167-1173 | upper-casing twice equals upper-casing once |
| Handlers.Transform | goon-module.c:1162-1179 | an event without payload gives the null-pointer code; a string payload is upper-cased in place; nothing else in the event changes |
| Handlers.Detect | goon-module.c:1181-1197 | an error exactly when the event's key is already cached, and then only that slot's timestamp is refreshed. Otherwise the marker is stored under the key as a cache set stores it, with no other slot changed except the one evicted at capacity, and a get reads it back |
| Handlers.DetectorFlagsRepeat | goon-module.c:1181-1197 | the second sighting of the same event is flagged |
| Handlers.WriteToCache | goon-module.c:1096-1109 | a payload value is stored under the event's name as a cache set stores it, no other slot changes except the one evicted at capacity, and a get reads it back; with no value the cache is unchanged |
| Handlers.Invoke | goon-module.c:1096-1197 | a callback keeps the event's shape and the cache's validity. Where its result depends only on the event, it fails exactly on the failing events. The detector fails exactly on a cached key |
| Registry.Register | goon-module.c:812-821 | the handler becomes the head and the rest is kept |
| Registry.Find | goon-module.c:823-835 | none exactly when no handler has the name; otherwise the first match from the head |
| Registry.Unregister | goon-module.c:837-862 | none exactly when find misses; otherwise only the first match is removed and the others keep their order |
| Registry.SetEnabledByName | goon-module.c:730-740 | only the first match's flag changes; none when no handler has the name |
| Registry.FindAfterRegister | goon-module.c:812-835 | find returns the most recently registered handler with a name |
| Registry.UnregisterUndoesRegister | goon-module.c:812-862 | unregistering the name just registered restores the registry, even with an older handler of the same name |
| Registry.RegistrationOrder | goon-module.c:812-821 | registering a then b puts b ahead of a |
| Links.RegisterAsWritten | goon-module.c:812-821 | the node is pointed at the old head and becomes the head; no other node's `next` changes |
| Links.ReRegisterLoops | goon-module.c:812-835 | registering a node that the walk from the head already reaches closes a cycle: the walk from the new head never reaches NULL, so find, unregister and the drain loop never end |
| Links.DoubleRegisterLoops | goon-module.c:815-816 | registering the same handler twice in a row points it at itself, and the walk from the head stays on it |
| Links.RegisterChecked | goon-module.c:812-821 | registration that refuses a node already on the list with the invalid-parameter code. A list that ended within `count` steps ends within `count + 1`, with the new node ahead of the old ones |
| Dispatch.Failures | goon-module.c:922-925 | the number of failing events, at most the number of events |
| Dispatch.Visit | goon-module.c:905-929 | one event through the registry: each enabled handler is called once and fails at most once, disabled handlers are untouched, and a failure does not stop later handlers |
| Dispatch.AdvancedChains | goon-module.c:900-938 | the statistics from consecutive events add up |
| Dispatch.Drain | goon-module.c:900-938 | each enabled handler's call count rises by the number of events. Its error count rises by at most that many, and exactly by the failing events when the result depends only on the event. Disabled handlers are untouched |
| Dispatch.RegistryOrderDecidesWhatIsCached | goon-module.c:909-933 | handlers run from the head, each on the event the previous one left: a transformer ahead of a cache writer makes it store the upper-cased payload, and behind it the writer stores the original |
| Dispatch.QueueOrderDecidesWhatIsCached | goon-module.c:903-937 | events are taken in queue order: of two same-named events reaching a cache writer, the later one's value is what the cache keeps |
| Dispatch.ConstantFailures | goon-module.c:922-925 | a fixed-result callback fails on every event or on none |
| Dispatch.DisabledRegistryUntouched | goon-module.c:909-911 | with every handler disabled, dispatch changes no handler |
| Contexts.Create | goon-module.c:751-781 | a new context is idle and valid. It has the default name for NULL, no handlers, an empty 1024-event queue, an empty cache, an empty 128-slot pool and zero counters |
| Contexts.SetState | goon-module.c:864-870 | the state becomes the requested one and nothing else changes |
| Contexts.Start | goon-module.c:1007-1013 | the state becomes RUNNING whatever it was |
| Contexts.Pause | goon-module.c:1028-1034 | the state becomes PAUSED whatever it was |
| Contexts.Resume | goon-module.c:1036-1042 | the state becomes RUNNING whatever it was |
| Contexts.RegisterHandler | goon-module.c:812-821 | NULL is refused; otherwise the handler is the new head and the count rises by one |
| Contexts.FindHandler | goon-module.c:823-835 | none exactly when no handler has the name; otherwise the first handler from the head with that name |
| Contexts.UnregisterHandler | goon-module.c:837-862 | not-found with no change exactly when no handler has the name; otherwise the first match is removed and the count falls by one |
| Contexts.SetHandlerEnabled | goon-module.c:730-740 | the first handler with the name gets the flag, and no other handler and no other field changes; a missing name gives the null-pointer code |
| Contexts.EmitEvent | goon-module.c:881-891 | NULL is refused; overflow with no change exactly when the queue is full; otherwise the event is appended and the emitted count rises by one |
| Contexts.DrainQueue | goon-module.c:902-941 | the queue ends empty, the processed count rises by the number of events, and handler statistics advance as in the drain |
| Contexts.ProcessEvents | goon-module.c:893-941 | the generic error and no change exactly when not RUNNING. Otherwise it returns the number of queued events, empties the queue, raises the processed count by that number and advances each handler. Only the handlers, queue, cache and processed count change, and the queue keeps its capacity |
| Contexts.StopAsWritten | goon-module.c:1015-1026 | as written, stop returns success and ends in TERMINATED |
| Contexts.Stop | goon-module.c:1015-1026 | stop as intended: the pending events are processed, then the state is TERMINATED. Only the state and what the drain touches change, and the queue keeps its capacity |
| Contexts.StopAsWrittenSkipsDrain | goon-module.c:1015-1026 | as written, stop only changes the state: the queue, statistics and cache are untouched |
| Contexts.StopAsWrittenLeavesEventsQueued | goon-module.c:1021-1022 | a pending event stays queued after the stop as written, and is processed by the intended stop |
| Contexts.ClearQueue | goon-module.c:1243-1257 | the queue is emptied, success is returned, nothing else changes |
| Contexts.ResetStatistics | goon-module.c:1259-1275 | all call and error counts and the processed count become zero and the start time becomes now. Registry order, flags and the queue are kept |
| Contexts.EmitBatch | goon-module.c:1324-1338 | the count is min(room, non-NULL events); those first events are appended in order and the emitted count rises by as many |
| Contexts.RegisterBatch | goon-module.c:1340-1354 | every non-NULL handler is registered; they precede the old registry in reverse order, and the count rises by their number |
| Contexts.PresentKeepsValues | goon-module.c:1328-1329 | the batch members skip exactly the NULL entries: every non-NULL entry's value is kept, and nothing else is |
| Contexts.PresentSplits | goon-module.c:1328-1329 | the batch members keep the array's order: the non-NULL entries of two consecutive parts come out one part after the other |
| Contexts.StartEnablesProcessing | goon-module.c:896-899 | an idle context refuses to process; after start it processes every pending event |
| Contexts.PauseBlocksResumeRestores | goon-module.c:896-899 | a paused context refuses; after resume it processes |
| Contexts.ClearThenProcess | goon-module.c:1243-1257 | after clearing, processing returns 0 and changes no handler |
| Contexts.ResetIsIdempotent | goon-module.c:1259-1275 | resetting twice equals resetting once |
| Workers.Create | goon-module.c:1366-1380 | NULL context gives no worker; otherwise a stopped worker with no iterations |
| Workers.Start | goon-module.c:1388-1396 | the worker runs and its context is RUNNING |
| Workers.Stop | goon-module.c:1398-1407 | the worker stops, and its context goes to TERMINATED with nothing else changed, since the `goon_stop` it calls refuses to drain |
| Workers.StopIntended | goon-module.c:1398-1407 | the worker stops on top of the intended `goon_stop`: the pending events are processed and the context is TERMINATED. Only the context's state and what the drain touches change |
| Workers.StopLeavesPendingEvent | goon-module.c:1398-1407 | a worker stopped with one event pending leaves it queued and unprocessed; the intended stop processes it |
| Workers.Tick | goon-module.c:1409-1415 | a worker that is not running refuses with the generic error; otherwise it counts the tick and returns the context's processing result |
| Workers.TickAfterStartDrains | goon-module.c:1388-1415 | a tick after start drains the whole queue and returns its length |
| Workers.TickOnPausedContext | goon-module.c:1409-1415 | a running worker on a paused context counts the tick and returns the context's error |
| Config.Create | goon-module.c:1473-1487 | a new store is empty and valid; a capacity of 0 becomes 64 |
| Config.StoredValue | goon-module.c:1505-1506 | a stored value keeps at most 4095 characters, is a prefix of the given one, and is the whole value when that fits |
| Config.Set | goon-module.c:1499-1523 | NULL gives the null-pointer code. Overflow with no change exactly when the key is new and the table is full. An existing key keeps its place and only its value changes; a new key is appended with the cut value. The store stays valid |
| Config.SetAsWritten | goon-module.c:1499-1523 | the set as written, comparing the uncut key. NULL gives the null-pointer code and overflow comes exactly when no entry holds the uncut key and the store is full; a failure changes nothing. The first entry holding the uncut key gets the cut value, and a key that no entry holds uncut is appended cut |
| Config.Get | goon-module.c:1525-1535 | a value exactly when the key is held, namely that key's value |
| Config.GetAsWritten | goon-module.c:1525-1535 | the get as written: a value exactly when an entry holds the uncut key, and then the first such entry's value |
| Config.Remove | goon-module.c:1537-1556 | not-found with no change exactly when absent; otherwise the entry is removed with later entries shifted down |
| Config.RemoveAsWritten | goon-module.c:1537-1556 | the remove as written: not-found with no change exactly when no entry holds the uncut key. Otherwise the first entry holding it goes and the later entries move down in order |
| Config.AgreeOnShortKeys | goon-module.c:1499-1556 | for a key under 128 characters, the corrected set, get and remove give the same results as the code as written |
| Config.SetThenGet | goon-module.c:1499-1535 | a get after a successful set returns the stored value |
| Config.RemoveThenGetMisses | goon-module.c:1525-1556 | a removed key is no longer found |
| Config.AsWrittenLosesLongKeys | goon-module.c:1503-1504 | as written, a second set with a 128-character key duplicates the key, a get misses, and a remove reports not-found |

## Left out

- Workers.Stop: it models `goon_worker_stop` on top of `goon_stop` as written, so the pending events stay queued. `Workers.StopIntended` is the version that drains.
- Events and handlers are values, whereas the C code links them into intrusive lists through their own `next` fields. The consequences of that sharing are not modelled, except for the registration cycle in `Links`. Emitting an event that is already queued corrupts the queue (lines 339-359). If it is still the tail, its `next` points to itself, and once the drain destroys it (line 935) the next pop uses it after it was freed (line 361). If other events follow it, pushing it again sets its `next` to NULL (line 347) while the size grows. The events behind it are then cut off: the drain pops it, finds a NULL head (line 362) with a non-zero size, and stops (line 905), and those events are never processed.
- The registry as a sequence: registering a handler that is already registered adds a second entry. In the C code the list becomes cyclic, as `Links.ReRegisterLoops` shows.
- The worker holds a pointer to its context (line 1375). In the model it holds a copy, so changes made to the context outside the worker are not visible to it.

- Logging and printing (`goon_log`, `goon_print_stats`), the echo, logger, counter and statistics handlers, benchmarking and `main`: output only.
- The rate-limiter handler: it depends on the wall clock and on function-local static state.
- `avg_exec_time` and the `clock()` timing of each call: floating point and wall-clock values.
- Event serialization: it is a thin wrapper around `snprintf`/`sscanf`.
- `goon_data_*`: payload ownership, cleanup callbacks and copy-versus-borrow. A payload is a kind plus an optional byte buffer.
- Allocation failures (every out-of-memory branch), the pool's custom allocator and free functions, and all `*_destroy` functions.
- The `g_goon_ctx` singleton (`goon_init`, `goon_cleanup`, `goon_get_context`) and the global identifier counters. The context is passed explicitly and identifiers are parameters.
- The context's `call_stack` field: no operation uses it. The stack is modelled on its own.
- `debug_mode`, `goon_context_enable_debug` and `goon_context_disable_debug`: the flag only gates log output.
- NULL arguments whose handling does not change the outcome: a NULL context, queue, cache, pool or worker, a NULL event passed to `goon_queue_push` (line 340), NULL names passed to find and unregister, the NULL keys of cache get and remove (lines 556, 572) and of config get and remove (lines 1526, 1538), the NULL arrays passed to emit and register batch (lines 1325, 1341), and the detector's NULL checks (line 1182). Each is refused at the top of its function. The NULL arguments whose handling matters to the behaviour are modelled.
- Integer widths: counters are unbounded. The `uint64_t` counts, the `uint32_t` identifiers, the `int` return of `process_events` and the `size_t` handler count do not wrap.
- Contexts.UnregisterHandler: states the count falls by one only for a valid context. On an inconsistent count of 0 the C `size_t` would wrap, and the model keeps it at 0.
- Handlers.UpperUntilNul: a buffer without a NUL is upper-cased to its end. In C, `strlen` would read past the buffer.
- Stacks.IsEmpty: the stack's items are never NULL in the model. `goon_stack_push` accepts a NULL item (lines 421-430), and popping such an item returns NULL from a stack that is not empty.
- Handlers.Detect: it runs on the corrected cache, which compares the cut key. As written, it would never recognise an event whose name has more than 121 characters. The marker stored is the little-endian bytes of the int 1.
- Registry.Find: handler names are cut at creation but compared uncut, so looking up a name longer than 127 characters never matches. This is modelled as written.
- Dispatch.Visit: the duplicate detector's result depends on the cache as well as the event, so the contract bounds its error count but does not state it exactly.
- Dispatch.Drain: for the same reason, the contract bounds the duplicate detector's error count over a drain but does not state it exactly.
- A single `now` serves a whole drain, whereas the C code reads the clock at each cache touch.
- A one-slot cache scenario cannot be stated: the cache capacity is the constant 64.

## Findings

| source | as written | input that shows it | evidently intended | confidence | as-written member | corrected member |
|---|---|---|---|---|---|---|
| goon-module.c:491-492 | the cache stores a key cut to 127 characters but compares the caller's uncut key, in set, get (559) and remove (575) | `set(k, v)` twice with a 128-character `k` | keys stay unique and a get after a set hits | high; not executed | Caches.AsWrittenLosesLongKeys | Caches.SetThenGet |
| goon-module.c:1019-1022 | `goon_stop` sets STOPPING and then calls `process_events`, which refuses any state but RUNNING, so the remaining events are never processed | a running context with one queued event, then `goon_stop` | the remaining events are processed before TERMINATED, as the code's comment says | high; not executed | Contexts.StopAsWrittenLeavesEventsQueued | Contexts.Stop |
| goon-module.c:1503-1504 | the config store compares the caller's uncut key with the stored cut key, in set, get (1529) and remove (1541) | `config_set(k, v)` twice with a 128-character `k` | keys stay unique and a get after a set hits | high; not executed | Config.AsWrittenLosesLongKeys | Config.SetThenGet |
| goon-module.c:815-816 | `goon_context_register_handler` links the handler ahead of the head without checking that it is already linked | registering the same handler twice in a row | the handler list stays NULL-terminated, so find, unregister and the drain loop end | medium (the bug is certain; the refusal code is a guess at the intent); not executed | Links.DoubleRegisterLoops | Links.RegisterChecked |

The rest of the model uses the corrected members. Cache and config lookups compare the cut key. The sequence registry stands for the nodes a walk from the head visits. That walk is well defined only while the list stays NULL-terminated, which `Links.RegisterChecked` guarantees and the registration as written does not. The worker's stop is modelled as written (`Workers.Stop`), next to `Workers.StopIntended`, because `goon_worker_stop` only forwards to `goon_stop`.

=== FILE: cache.dfy ===
/** The 64-slot key/value cache (`goon_cache_*`). The parallel arrays of keys,
    values, sizes and timestamps are one sequence of entries; the count is its
    length and a value's size is the length of its bytes. Timestamps come from
    an explicit `now` instead of the wall clock.

    Keys are stored cut to the 127-character name buffer. The C code compares the
    caller's key with the stored key without cutting it first; the `AsWritten`
    members model that, and the unsuffixed members, which the rest of the model
    uses, compare the cut key. */
module Caches {
  import opened Wrappers
  import opened Search
  import opened Codes
  import opened Text

  const Capacity: nat := 64

  datatype Entry = Entry(key: string, value: seq<byte>, stamp: int)

  datatype Cache = Cache(entries: seq<Entry>)

  predicate UniqueKeys(es: seq<Entry>)
  {
    forall i, j :: 0 <= i < j < |es| ==> es[i].key != es[j].key
  }

  /** At most 64 entries, keys unique, every key fits the name buffer. */
  predicate Valid(c: Cache)
  {
    && |c.entries| <= Capacity
    && UniqueKeys(c.entries)
    && forall i :: 0 <= i < |c.entries| ==> |c.entries[i].key| < MaxNameLen
  }

  /** The keys the cache holds. */
  function Keys(c: Cache): set<string>
  {
    set i | 0 <= i < |c.entries| :: c.entries[i].key
  }

  /** `goon_cache_create`. */
  function Create(): (c: Cache)
    ensures Valid(c) && Keys(c) == {}
  {
    Cache([])
  }

  /** The scan of `goon_cache_set`, `get` and `remove`: the first slot holding `key`. */
  function IndexOf(es: seq<Entry>, key: string): Option<nat>
  {
    FirstIndex(es, (e: Entry) => e.key, key)
  }

  /** Slot `i` is where a scan from the front stops for `key`: the first slot
      holding it. A table the code as written fills can hold a key twice. */
  predicate FirstHolder(es: seq<Entry>, key: string, i: nat)
  {
    i < |es| && es[i].key == key && forall j :: 0 <= j < i ==> es[j].key != key
  }

  lemma IndexOfFindsFirst(es: seq<Entry>, key: string)
    ensures forall i: nat :: FirstHolder(es, key, i) ==> IndexOf(es, key) == Some(i)
  {
    forall i: nat | FirstHolder(es, key, i)
      ensures IndexOf(es, key) == Some(i)
    {
      var r := IndexOf(es, key);
      assert r.Some? by { assert es[i].key == key; }
      assert !(r.value < i) && !(i < r.value);
    }
  }

  /** Slot `o` holds the strictly smallest timestamp seen by a left-to-right scan:
      no slot is older, and every slot before it is strictly younger. */
  predicate IsOldest(es: seq<Entry>, o: nat)
  {
    && o < |es|
    && (forall j :: 0 <= j < |es| ==> es[o].stamp <= es[j].stamp)
    && (forall j :: 0 <= j < o ==> es[o].stamp < es[j].stamp)
  }

  /** The eviction scan: keeps the first slot whose timestamp is strictly below
      every one seen before it. */
  function Oldest(es: seq<Entry>): (o: nat)
    requires |es| > 0
    ensures IsOldest(es, o)
    decreases |es|
  {
    if |es| == 1 then 0
    else
      var o := Oldest(es[..|es| - 1]);
      if es[|es| - 1].stamp < es[o].stamp then |es| - 1 else o
  }

  /** There is only one oldest slot, so the eviction choice is determined. */
  lemma OldestIsUnique(es: seq<Entry>, o1: nat, o2: nat)
    requires IsOldest(es, o1) && IsOldest(es, o2)
    ensures o1 == o2
  {
    assert es[o1].stamp <= es[o2].stamp && es[o2].stamp <= es[o1].stamp;
  }

  /** The body of `goon_cache_set` once both pointers are known to be non-NULL:
      `probe` is the key the scan compares, `key` the key a new slot stores. */
  function SetWith(c: Cache, probe: string, key: string, value: seq<byte>, now: int): Cache
  {
    match IndexOf(c.entries, probe)
    case Some(i) => Cache(c.entries[i := c.entries[i].(value := value, stamp := now)])
    case None =>
      if |c.entries| >= Capacity then
        Cache(c.entries[Oldest(c.entries) := Entry(Bounded(key), value, now)])
      else
        Cache(c.entries + [Entry(Bounded(key), value, now)])
  }

  /** `goon_cache_set`, comparing the stored (cut) form of the key. */
  function Set(c: Cache, key: Option<string>, value: Option<seq<byte>>, now: int): (r: Step<Cache>)
    requires Valid(c)
    ensures r.code == ErrNullPtr <==> key.None? || value.None?
    ensures r.code == ErrNullPtr ==> r.state == c
    ensures r.code != ErrNullPtr ==> r.code == Success
    ensures Valid(r.state)
    // an existing key keeps its slot; nothing else changes
    ensures r.code == Success && Bounded(key.value) in Keys(c) ==>
              |r.state.entries| == |c.entries|
              && forall j :: 0 <= j < |c.entries| ==>
                   r.state.entries[j] == if c.entries[j].key == Bounded(key.value)
                                         then Entry(c.entries[j].key, value.value, now)
                                         else c.entries[j]
    // a new key below capacity is appended
    ensures r.code == Success && Bounded(key.value) !in Keys(c) && |c.entries| < Capacity ==>
              r.state.entries == c.entries + [Entry(Bounded(key.value), value.value, now)]
    // a new key at capacity replaces the oldest slot, lowest index on ties
    ensures r.code == Success && Bounded(key.value) !in Keys(c) && |c.entries| == Capacity ==>
              exists o: nat :: IsOldest(c.entries, o)
                          && r.state.entries == c.entries[o := Entry(Bounded(key.value), value.value, now)]
  {
    if key.None? || value.None? then Step(c, ErrNullPtr)
    else
      var k := Bounded(key.value);
      var r := SetWith(c, k, k, value.value, now);
      SetKeepsValid(c, k, value.value, now);
      Step(r, Success)
  }

  /** `c'` is `c` after storing `v` under the cut key `k` at time `now`: in the
      key's own slot, in a new last slot below capacity, or in place of the
      oldest slot at capacity. No other slot changes. */
  predicate StoredIn(c: Cache, k: string, v: seq<byte>, now: int, c': Cache)
  {
    if k in Keys(c) then
      && |c'.entries| == |c.entries|
      && forall j :: 0 <= j < |c.entries| ==>
           c'.entries[j] == if c.entries[j].key == k then Entry(k, v, now) else c.entries[j]
    else if |c.entries| < Capacity then
      c'.entries == c.entries + [Entry(k, v, now)]
    else
      exists o: nat :: o < |c.entries| && IsOldest(c.entries, o) && c'.entries == c.entries[o := Entry(k, v, now)]
  }

  /** `c'` is `c` with only the timestamp of the slot holding `k` set to `now`. */
  predicate RefreshedIn(c: Cache, k: string, now: int, c': Cache)
  {
    && |c'.entries| == |c.entries|
    && forall j :: 0 <= j < |c.entries| ==>
         c'.entries[j] == if c.entries[j].key == k then c.entries[j].(stamp := now) else c.entries[j]
  }

  /** A set stores the value under the cut key and touches no other slot. */
  lemma SetStores(c: Cache, key: string, v: seq<byte>, now: int)
    requires Valid(c)
    ensures StoredIn(c, Bounded(key), v, now, Set(c, Some(key), Some(v), now).state)
  {
  }

  /** A get only refreshes the timestamp of the slot holding the cut key. */
  lemma GetRefreshes(c: Cache, key: string, now: int)
    requires Valid(c)
    ensures RefreshedIn(c, Bounded(key), now, Get(c, key, now).0)
  {
  }

  /** A key is held exactly when the scan finds it. */
  lemma InKeysIffFound(c: Cache, k: string)
    ensures k in Keys(c) <==> IndexOf(c.entries, k).Some?
  {
    if IndexOf(c.entries, k).Some? {
      assert c.entries[IndexOf(c.entries, k).value].key == k;
    }
  }

  /** Writing an entry with a key no other slot holds keeps the keys unique. */
  lemma ReplaceKeepsUnique(es: seq<Entry>, o: nat, e: Entry)
    requires UniqueKeys(es) && o < |es|
    requires forall j :: 0 <= j < |es| && j != o ==> es[j].key != e.key
    ensures UniqueKeys(es[o := e])
  {
    var es' := es[o := e];
    forall i, j | 0 <= i < j < |es'|
      ensures es'[i].key != es'[j].key
    {
      if i == o { assert es'[j] == es[j]; }
      else if j == o { assert es'[i] == es[i]; }
      else { assert es'[i] == es[i] && es'[j] == es[j]; }
    }
  }

  /** Appending an entry whose key is not held keeps the keys unique. */
  lemma AppendKeepsUnique(es: seq<Entry>, e: Entry)
    requires UniqueKeys(es)
    requires forall j :: 0 <= j < |es| ==> es[j].key != e.key
    ensures UniqueKeys(es + [e])
  {
    var es' := es + [e];
    forall i, j | 0 <= i < j < |es'|
      ensures es'[i].key != es'[j].key
    {
      assert es'[i] == es[i];
    }
  }

  /** Overwriting a slot's value and timestamp keeps every key where it was. */
  lemma UpdateKeepsValid(c: Cache, i: nat, v: seq<byte>, now: int)
    requires Valid(c) && i < |c.entries|
    ensures Valid(Cache(c.entries[i := c.entries[i].(value := v, stamp := now)]))
  {
    var es' := c.entries[i := c.entries[i].(value := v, stamp := now)];
    assert forall j :: 0 <= j < |es'| ==> es'[j].key == c.entries[j].key;
  }

  lemma SetKeepsValid(c: Cache, k: string, v: seq<byte>, now: int)
    requires Valid(c) && |k| < MaxNameLen
    ensures Valid(SetWith(c, k, k, v, now))
    ensures k in Keys(c) <==> IndexOf(c.entries, k).Some?
  {
    InKeysIffFound(c, k);
    var es := c.entries;
    match IndexOf(es, k)
    case Some(i) =>
      UpdateKeepsValid(c, i, v, now);
    case None =>
      if |es| >= Capacity {
        ReplaceKeepsUnique(es, Oldest(es), Entry(k, v, now));
      } else {
        AppendKeepsUnique(es, Entry(k, v, now));
      }
  }

  /** Removing slot `i` keeps the keys unique and takes only `es[i].key` out of
      the key set. */
  lemma RemoveAtKeepsValid(c: Cache, i: nat)
    requires Valid(c) && i < |c.entries|
    ensures Valid(Cache(c.entries[..i] + c.entries[i + 1..]))
    ensures Keys(Cache(c.entries[..i] + c.entries[i + 1..])) == Keys(c) - {c.entries[i].key}
  {
    var es := c.entries;
    var es' := es[..i] + es[i + 1..];
    assert forall j :: 0 <= j < |es'| ==> es'[j] == if j < i then es[j] else es[j + 1];
    forall x | x in Keys(c) - {es[i].key}
      ensures x in Keys(Cache(es'))
    {
      var j :| 0 <= j < |es| && es[j].key == x;
      if j < i { assert es'[j].key == x; } else { assert es'[j - 1].key == x; }
    }
  }

  /** `goon_cache_set` as written: the scan compares the caller's key, uncut. */
  function SetAsWritten(c: Cache, key: Option<string>, value: Option<seq<byte>>, now: int): (r: Step<Cache>)
    ensures r.code == ErrNullPtr <==> key.None? || value.None?
    ensures r.code == ErrNullPtr ==> r.state == c
    ensures r.code != ErrNullPtr ==> r.code == Success
    // the first slot holding the uncut key gets the value and the timestamp
    ensures key.Some? && value.Some? ==>
              forall i: nat :: FirstHolder(c.entries, key.value, i) ==>
                r.state.entries == c.entries[i := c.entries[i].(value := value.value, stamp := now)]
    // a key no slot holds uncut is stored cut, in a new slot below capacity
    ensures r.code == Success && key.value !in Keys(c) && |c.entries| < Capacity ==>
              r.state.entries == c.entries + [Entry(Bounded(key.value), value.value, now)]
    // ... and in place of the oldest slot at capacity
    ensures r.code == Success && key.value !in Keys(c) && |c.entries| >= Capacity ==>
              exists o: nat :: IsOldest(c.entries, o)
                          && r.state.entries == c.entries[o := Entry(Bounded(key.value), value.value, now)]
  {
    if key.None? || value.None? then Step(c, ErrNullPtr)
    else
      InKeysIffFound(c, key.value);
      IndexOfFindsFirst(c.entries, key.value);
      Step(SetWith(c, key.value, key.value, value.value, now), Success)
  }

  /** The body of `goon_cache_get`: on a hit, returns the value (its length is
      the size) and refreshes that slot's timestamp. */
  function GetWith(c: Cache, probe: string, now: int): (Cache, Option<seq<byte>>)
  {
    match IndexOf(c.entries, probe)
    case None => (c, None)
    case Some(i) => (Cache(c.entries[i := c.entries[i].(stamp := now)]), Some(c.entries[i].value))
  }

  /** `goon_cache_get`, comparing the stored (cut) form of the key. */
  function Get(c: Cache, key: string, now: int): (r: (Cache, Option<seq<byte>>))
    requires Valid(c)
    ensures r.1.Some? <==> Bounded(key) in Keys(c)
    ensures r.1.None? ==> r.0 == c
    ensures Valid(r.0) && Keys(r.0) == Keys(c) && |r.0.entries| == |c.entries|
    ensures forall j :: 0 <= j < |c.entries| ==>
              && r.0.entries[j].key == c.entries[j].key
              && r.0.entries[j].value == c.entries[j].value
              && r.0.entries[j].stamp == if c.entries[j].key == Bounded(key) then now else c.entries[j].stamp
    ensures forall j :: 0 <= j < |c.entries| && c.entries[j].key == Bounded(key) ==> r.1 == Some(c.entries[j].value)
  {
    var r := GetWith(c, Bounded(key), now);
    assert Bounded(key) in Keys(c) <==> IndexOf(c.entries, Bounded(key)).Some?;
    assert Keys(r.0) == Keys(c) by {
      assert forall j :: 0 <= j < |c.entries| ==> r.0.entries[j].key == c.entries[j].key;
    }
    r
  }

  /** `goon_cache_get` as written. */
  function GetAsWritten(c: Cache, key: string, now: int): (r: (Cache, Option<seq<byte>>))
    ensures r.1.Some? <==> key in Keys(c)
    ensures r.1.None? ==> r.0 == c
    // the first slot holding the uncut key answers, and only its timestamp is refreshed
    ensures forall i: nat :: FirstHolder(c.entries, key, i) ==>
              r.1 == Some(c.entries[i].value) && r.0.entries == c.entries[i := c.entries[i].(stamp := now)]
  {
    InKeysIffFound(c, key);
    IndexOfFindsFirst(c.entries, key);
    GetWith(c, key, now)
  }

  /** The body of `goon_cache_remove`: drops the slot and shifts the later ones down. */
  function RemoveWith(c: Cache, probe: string): Step<Cache>
  {
    match IndexOf(c.entries, probe)
    case None => Step(c, ErrNotFound)
    case Some(i) => Step(Cache(c.entries[..i] + c.entries[i + 1..]), Success)
  }

  /** `goon_cache_remove`, comparing the stored (cut) form of the key. */
  function Remove(c: Cache, key: string): (r: Step<Cache>)
    requires Valid(c)
    ensures r.code == Success || r.code == ErrNotFound
    ensures r.code == ErrNotFound <==> Bounded(key) !in Keys(c)
    ensures r.code == ErrNotFound ==> r.state == c
    ensures r.code == Success ==>
              exists i :: 0 <= i < |c.entries| && c.entries[i].key == Bounded(key)
                          && r.state.entries == c.entries[..i] + c.entries[i + 1..]
    ensures Valid(r.state)
    ensures Keys(r.state) == Keys(c) - {Bounded(key)}
  {
    var k := Bounded(key);
    InKeysIffFound(c, k);
    match IndexOf(c.entries, k)
    case None => RemoveWith(c, k)
    case Some(i) =>
      RemoveAtKeepsValid(c, i);
      RemoveWith(c, k)
  }

  /** `goon_cache_remove` as written: the scan compares the caller's key, uncut. */
  function RemoveAsWritten(c: Cache, key: string): (r: Step<Cache>)
    ensures r.code == Success || r.code == ErrNotFound
    ensures r.code == ErrNotFound <==> key !in Keys(c)
    ensures r.code == ErrNotFound ==> r.state == c
    ensures r.code == Success ==> |r.state.entries| == |c.entries| - 1
    // the first slot holding the uncut key goes; the later ones move down in order
    ensures forall i: nat :: FirstHolder(c.entries, key, i) ==>
              r == Step(Cache(c.entries[..i] + c.entries[i + 1..]), Success)
  {
    InKeysIffFound(c, key);
    IndexOfFindsFirst(c.entries, key);
    RemoveWith(c, key)
  }

  /** For keys that fit the name buffer, cutting changes nothing: the corrected
      set, get and remove are the C functions as written. */
  lemma AgreeOnShortKeys(c: Cache, key: string, value: seq<byte>, now: int)
    requires Valid(c) && |key| < MaxNameLen
    ensures Set(c, Some(key), Some(value), now) == SetAsWritten(c, Some(key), Some(value), now)
    ensures Get(c, key, now) == GetAsWritten(c, key, now)
    ensures Remove(c, key) == RemoveAsWritten(c, key)
  {
  }

  /** `goon_cache_clear`. */
  function Clear(c: Cache): (r: Cache)
    ensures Valid(r) && Keys(r) == {}
  {
    Cache([])
  }

  /** Reading a key right after storing it returns the stored value. */
  lemma SetThenGet(c: Cache, key: string, v: seq<byte>, now: int, later: int)
    requires Valid(c)
    ensures Get(Set(c, Some(key), Some(v), now).state, key, later).1 == Some(v)
  {
    var c' := Set(c, Some(key), Some(v), now).state;
    var k := Bounded(key);
    if k in Keys(c) {
      var j :| 0 <= j < |c.entries| && c.entries[j].key == k;
      assert c'.entries[j].key == k;
    } else if |c.entries| < Capacity {
      assert c'.entries[|c.entries|].key == k;
    } else {
      var o: nat :| IsOldest(c.entries, o) && c'.entries == c.entries[o := Entry(k, v, now)];
      assert c'.entries[o].key == k;
    }
  }

  /** Setting the same key and value twice leaves the count as after the first. */
  lemma SetTwiceKeepsCount(c: Cache, key: string, v: seq<byte>, now: int)
    requires Valid(c)
    ensures var c1 := Set(c, Some(key), Some(v), now).state;
            var c2 := Set(c1, Some(key), Some(v), now).state;
            |c2.entries| == |c1.entries| && c2 == c1
  {
    var c1 := Set(c, Some(key), Some(v), now).state;
    SetThenGet(c, key, v, now, now);
    var c2 := Set(c1, Some(key), Some(v), now).state;
    assert Bounded(key) in Keys(c1);
    var k := Bounded(key);
    // the slot that holds the key after the first set
    var p: nat;
    if k in Keys(c) {
      var i :| 0 <= i < |c.entries| && c.entries[i].key == k;
      p := i;
    } else if |c.entries| < Capacity {
      p := |c.entries|;
    } else {
      var o: nat :| IsOldest(c.entries, o) && c1.entries == c.entries[o := Entry(k, v, now)];
      p := o;
    }
    assert c1.entries[p] == Entry(k, v, now);
    assert c2.entries == c1.entries by {
      forall j | 0 <= j < |c1.entries|
        ensures c2.entries[j] == c1.entries[j]
      {
        assert c1.entries[j].key == k ==> j == p;
      }
    }
  }

  /** A removed key is gone. */
  lemma RemoveThenGetMisses(c: Cache, key: string, now: int)
    requires Valid(c)
    ensures Get(Remove(c, key).state, key, now).1.None?
  {
  }

  /** Reading refreshes: once read at a time later than every other entry's
      timestamp, an entry of a cache with at least two entries is no longer the
      eviction candidate. */
  lemma GetProtectsFromEviction(c: Cache, key: string, now: int)
    requires Valid(c) && |c.entries| >= 2 && Bounded(key) in Keys(c)
    requires forall j :: 0 <= j < |c.entries| ==> c.entries[j].stamp < now
    ensures var c' := Get(c, key, now).0;
            forall o: nat :: IsOldest(c'.entries, o) ==> c'.entries[o].key != Bounded(key)
  {
    var c' := Get(c, key, now).0;
    forall o: nat | IsOldest(c'.entries, o)
      ensures c'.entries[o].key != Bounded(key)
    {
      var other := if o == 0 then 1 else 0;
      assert c'.entries[o].stamp <= c'.entries[other].stamp;
    }
  }

  /** The key cut by the name buffer no longer matches the caller's key: a second
      `set` with a 128-character key adds a second slot with the same stored key,
      a `get` right after a `set` misses, and a `remove` reports the key missing. */
  lemma AsWrittenLosesLongKeys()
    ensures var key := seq(128, _ => 'a');
            var c1 := SetAsWritten(Create(), Some(key), Some([1]), 0).state;
            var c2 := SetAsWritten(c1, Some(key), Some([1]), 0).state;
            && GetAsWritten(c1, key, 0).1.None?
            && RemoveAsWritten(c1, key) == Step(c1, ErrNotFound) && |c1.entries| == 1
            && |c2.entries| == 2
            && c2.entries[0].key == c2.entries[1].key
            && !Valid(c2)
  {
    var key := seq(128, _ => 'a');
    var c1 := SetAsWritten(Create(), Some(key), Some([1]), 0).state;
    assert c1.entries[0].key == key[..127] != key;
    var c2 := SetAsWritten(c1, Some(key), Some([1]), 0).state;
    assert c2.entries[1].key == key[..127];
  }
}

=== FILE: codes.dfy ===
/** The closed set of integer status codes every fallible operation returns,
    and the pair of "new state, status code" that the mutating operations yield. */
module Codes {

  const Success: int := 0
  const Error: int := -1
  const ErrNullPtr: int := -2
  const ErrInvalidParam: int := -3
  const ErrOutOfMemory: int := -4
  const ErrNotFound: int := -5
  const ErrOverflow: int := -6
  const ErrUnderflow: int := -7

  /** The state an operation leaves behind and the status code it returns. */
  datatype Step<S> = Step(state: S, code: int)
}

=== FILE: config.dfy ===
/** The configuration store (`goon_config_*`): a bounded table of text keys and
    values. Keys are cut to the 127-character name buffer and values to the
    4095-character value buffer. As for the cache, the C code compares the
    caller's uncut key with the stored cut key; the `AsWritten` members model
    that, the unsuffixed members compare the cut key. */
module Config {
  import opened Wrappers
  import opened Search
  import opened Codes
  import opened Text

  const DefaultCapacity: nat := 64

  datatype ConfigEntry = ConfigEntry(key: string, value: string)

  datatype Store = Store(entries: seq<ConfigEntry>, capacity: nat)

  predicate Valid(s: Store)
  {
    && 0 < s.capacity && |s.entries| <= s.capacity
    && (forall i, j :: 0 <= i < j < |s.entries| ==> s.entries[i].key != s.entries[j].key)
    && (forall i :: 0 <= i < |s.entries| ==> |s.entries[i].key| < MaxNameLen)
    && (forall i :: 0 <= i < |s.entries| ==> |s.entries[i].value| < BufferSize)
  }

  function Keys(s: Store): set<string>
  {
    set i | 0 <= i < |s.entries| :: s.entries[i].key
  }

  /** `goon_config_create`: a requested capacity of 0 stands for the default. */
  function Create(capacity: nat): (s: Store)
    ensures Valid(s) && Keys(s) == {}
    ensures s.capacity == if capacity == 0 then DefaultCapacity else capacity
  {
    Store([], if capacity > 0 then capacity else DefaultCapacity)
  }

  /** What the value buffer keeps of a value. */
  function StoredValue(v: string): (r: string)
    ensures |r| < BufferSize && r <= v
    ensures |v| < BufferSize ==> r == v
    ensures |v| >= BufferSize ==> r == v[..BufferSize - 1]
  {
    Clip(v, BufferSize - 1)
  }

  /** The scan of `goon_config_set`, `get` and `remove`: the first entry with `key`. */
  function IndexOf(es: seq<ConfigEntry>, key: string): Option<nat>
  {
    FirstIndex(es, (e: ConfigEntry) => e.key, key)
  }

  /** Entry `i` is where a scan from the front stops for `key`: the first entry
      holding it. A store the code as written fills can hold a key twice. */
  predicate FirstHolder(es: seq<ConfigEntry>, key: string, i: nat)
  {
    i < |es| && es[i].key == key && forall j :: 0 <= j < i ==> es[j].key != key
  }

  lemma IndexOfFindsFirst(es: seq<ConfigEntry>, key: string)
    ensures forall i: nat :: FirstHolder(es, key, i) ==> IndexOf(es, key) == Some(i)
  {
    forall i: nat | FirstHolder(es, key, i)
      ensures IndexOf(es, key) == Some(i)
    {
      var r := IndexOf(es, key);
      assert r.Some? by { assert es[i].key == key; }
      assert !(r.value < i) && !(i < r.value);
    }
  }

  /** The body of `goon_config_set` once both pointers are known to be non-NULL:
      `probe` is the key the scan compares, `key` the key a new entry stores. */
  function SetWith(s: Store, probe: string, key: string, value: string): Step<Store>
  {
    match IndexOf(s.entries, probe)
    case Some(i) => Step(s.(entries := s.entries[i := s.entries[i].(value := StoredValue(value))]), Success)
    case None =>
      if |s.entries| >= s.capacity then Step(s, ErrOverflow)
      else Step(s.(entries := s.entries + [ConfigEntry(Bounded(key), StoredValue(value))]), Success)
  }

  /** `goon_config_set`, comparing the stored (cut) form of the key: an existing
      key's value is replaced, a new key is appended while there is room, and a
      full table refuses a new key. */
  function Set(s: Store, key: Option<string>, value: Option<string>): (r: Step<Store>)
    requires Valid(s)
    ensures r.code == Success || r.code == ErrNullPtr || r.code == ErrOverflow
    ensures r.code == ErrNullPtr <==> key.None? || value.None?
    ensures key.Some? && value.Some? ==>
              (r.code == ErrOverflow <==> Bounded(key.value) !in Keys(s) && |s.entries| >= s.capacity)
    ensures r.code != Success ==> r.state == s
    ensures Valid(r.state) && r.state.capacity == s.capacity
    ensures r.code == Success ==> Keys(r.state) == Keys(s) + {Bounded(key.value)}
    ensures r.code == Success && Bounded(key.value) in Keys(s) ==> |r.state.entries| == |s.entries|
    ensures r.code == Success ==>
              forall j :: 0 <= j < |r.state.entries| && r.state.entries[j].key == Bounded(key.value) ==>
                r.state.entries[j].value == StoredValue(value.value)
    // an existing key keeps its place; only its value changes
    ensures r.code == Success && Bounded(key.value) in Keys(s) ==>
              forall j :: 0 <= j < |s.entries| ==>
                r.state.entries[j] == if s.entries[j].key == Bounded(key.value)
                                      then ConfigEntry(s.entries[j].key, StoredValue(value.value))
                                      else s.entries[j]
    // a new key is appended
    ensures r.code == Success && Bounded(key.value) !in Keys(s) ==>
              r.state.entries == s.entries + [ConfigEntry(Bounded(key.value), StoredValue(value.value))]
  {
    if key.None? || value.None? then Step(s, ErrNullPtr)
    else
      SetWithKeepsValid(s, Bounded(key.value), value.value);
      SetWithPlacesEntry(s, Bounded(key.value), value.value);
      SetWith(s, Bounded(key.value), Bounded(key.value), value.value)
  }

  /** Where `SetWith` puts the value: in the key's own entry, or in a new last one. */
  lemma SetWithPlacesEntry(s: Store, k: string, v: string)
    requires Valid(s)
    ensures var r := SetWith(s, k, k, v);
            && (r.code == Success && k in Keys(s) ==>
                  forall j :: 0 <= j < |s.entries| ==>
                    r.state.entries[j] == if s.entries[j].key == k
                                          then ConfigEntry(s.entries[j].key, StoredValue(v))
                                          else s.entries[j])
            && (r.code == Success && k !in Keys(s) ==>
                  r.state.entries == s.entries + [ConfigEntry(Bounded(k), StoredValue(v))])
  {
    InKeysIffFound(s, k);
    match IndexOf(s.entries, k)
    case Some(i) =>
      assert forall j :: 0 <= j < |s.entries| && s.entries[j].key == k ==> j == i;
    case None =>
  }

  lemma SetWithKeepsValid(s: Store, k: string, v: string)
    requires Valid(s) && |k| < MaxNameLen
    ensures var r := SetWith(s, k, k, v);
            && (r.code == Success || r.code == ErrOverflow)
            && (r.code == ErrOverflow <==> k !in Keys(s) && |s.entries| >= s.capacity)
            && (r.code != Success ==> r.state == s)
            && Valid(r.state) && r.state.capacity == s.capacity
            && (r.code == Success ==> Keys(r.state) == Keys(s) + {k})
            && (r.code == Success && k in Keys(s) ==> |r.state.entries| == |s.entries|)
            && (r.code == Success ==>
                  forall j :: 0 <= j < |r.state.entries| && r.state.entries[j].key == k ==>
                    r.state.entries[j].value == StoredValue(v))
  {
    var r := SetWith(s, k, k, v);
    match IndexOf(s.entries, k)
    case Some(i) =>
      assert k in Keys(s);
      assert forall j :: 0 <= j < |r.state.entries| ==> r.state.entries[j].key == s.entries[j].key;
      assert Keys(r.state) == Keys(s);
    case None =>
      assert k !in Keys(s);
      if |s.entries| < s.capacity {
        var es' := r.state.entries;
        assert es'[|s.entries|].key == k;
        assert Keys(r.state) == Keys(s) + {k} by {
          forall x | x in Keys(r.state) ensures x in Keys(s) + {k} {
            var j :| 0 <= j < |es'| && es'[j].key == x;
            if j < |s.entries| { assert s.entries[j].key == x; }
          }
          forall x | x in Keys(s) ensures x in Keys(r.state) {
            var j :| 0 <= j < |s.entries| && s.entries[j].key == x;
            assert es'[j].key == x;
          }
        }
      }
  }

  /** `goon_config_set` as written: the scan compares the caller's key, uncut. */
  function SetAsWritten(s: Store, key: Option<string>, value: Option<string>): (r: Step<Store>)
    ensures r.code == Success || r.code == ErrNullPtr || r.code == ErrOverflow
    ensures r.code == ErrNullPtr <==> key.None? || value.None?
    ensures r.code != Success ==> r.state == s
    ensures r.state.capacity == s.capacity
    // a full store refuses exactly a key no entry holds uncut
    ensures key.Some? && value.Some? ==>
              (r.code == ErrOverflow <==> key.value !in Keys(s) && |s.entries| >= s.capacity)
    // the first entry holding the uncut key gets the cut value
    ensures key.Some? && value.Some? ==>
              forall i: nat :: FirstHolder(s.entries, key.value, i) ==>
                r.code == Success
                && r.state.entries == s.entries[i := s.entries[i].(value := StoredValue(value.value))]
    // a key no entry holds uncut is stored cut, in a new last entry
    ensures r.code == Success && key.value !in Keys(s) ==>
              r.state.entries == s.entries + [ConfigEntry(Bounded(key.value), StoredValue(value.value))]
  {
    if key.None? || value.None? then Step(s, ErrNullPtr)
    else
      InKeysIffFound(s, key.value);
      IndexOfFindsFirst(s.entries, key.value);
      SetWith(s, key.value, key.value, value.value)
  }

  /** `goon_config_get`, comparing the stored (cut) form of the key. */
  function Get(s: Store, key: string): (r: Option<string>)
    requires Valid(s)
    ensures r.Some? <==> Bounded(key) in Keys(s)
    ensures forall j :: 0 <= j < |s.entries| && s.entries[j].key == Bounded(key) ==> r == Some(s.entries[j].value)
  {
    match IndexOf(s.entries, Bounded(key))
    case None => None
    case Some(i) => Some(s.entries[i].value)
  }

  /** `goon_config_get` as written. */
  function GetAsWritten(s: Store, key: string): (r: Option<string>)
    ensures r.Some? <==> key in Keys(s)
    // the first entry holding the uncut key answers
    ensures forall i: nat :: FirstHolder(s.entries, key, i) ==> r == Some(s.entries[i].value)
  {
    InKeysIffFound(s, key);
    IndexOfFindsFirst(s.entries, key);
    match IndexOf(s.entries, key)
    case None => None
    case Some(i) => Some(s.entries[i].value)
  }

  /** `goon_config_remove`, comparing the stored (cut) form of the key: drops
      the entry and shifts the later ones down, or reports it missing. */
  function Remove(s: Store, key: string): (r: Step<Store>)
    requires Valid(s)
    ensures r.code == Success || r.code == ErrNotFound
    ensures r.code == ErrNotFound <==> Bounded(key) !in Keys(s)
    ensures r.code == ErrNotFound ==> r.state == s
    ensures r.code == Success ==>
              exists i :: 0 <= i < |s.entries| && s.entries[i].key == Bounded(key)
                          && r.state.entries == s.entries[..i] + s.entries[i + 1..]
    ensures Valid(r.state) && r.state.capacity == s.capacity
    ensures Keys(r.state) == Keys(s) - {Bounded(key)}
  {
    var k := Bounded(key);
    InKeysIffFound(s, k);
    match IndexOf(s.entries, k)
    case None => RemoveWith(s, k)
    case Some(i) =>
      RemoveAtKeepsValid(s, i);
      RemoveWith(s, k)
  }

  /** The body of `goon_config_remove`: drops the entry and shifts the later ones down. */
  function RemoveWith(s: Store, probe: string): Step<Store>
  {
    match IndexOf(s.entries, probe)
    case None => Step(s, ErrNotFound)
    case Some(i) => Step(s.(entries := s.entries[..i] + s.entries[i + 1..]), Success)
  }

  /** A key is held exactly when the scan finds it. */
  lemma InKeysIffFound(s: Store, k: string)
    ensures k in Keys(s) <==> IndexOf(s.entries, k).Some?
  {
    if IndexOf(s.entries, k).Some? {
      assert s.entries[IndexOf(s.entries, k).value].key == k;
    }
  }

  /** Removing entry `i` keeps the store valid and takes only its key out. */
  lemma RemoveAtKeepsValid(s: Store, i: nat)
    requires Valid(s) && i < |s.entries|
    ensures Valid(s.(entries := s.entries[..i] + s.entries[i + 1..]))
    ensures Keys(s.(entries := s.entries[..i] + s.entries[i + 1..])) == Keys(s) - {s.entries[i].key}
  {
    var es := s.entries;
    var es' := es[..i] + es[i + 1..];
    assert forall j :: 0 <= j < |es'| ==> es'[j] == if j < i then es[j] else es[j + 1];
    forall x | x in Keys(s) - {es[i].key}
      ensures x in Keys(s.(entries := es'))
    {
      var j :| 0 <= j < |es| && es[j].key == x;
      if j < i { assert es'[j].key == x; } else { assert es'[j - 1].key == x; }
    }
  }

  /** `goon_config_remove` as written: the scan compares the caller's key, uncut. */
  function RemoveAsWritten(s: Store, key: string): (r: Step<Store>)
    ensures r.code == Success || r.code == ErrNotFound
    ensures r.code == ErrNotFound <==> key !in Keys(s)
    ensures r.code == ErrNotFound ==> r.state == s
    ensures r.code == Success ==> |r.state.entries| == |s.entries| - 1
    // the first entry holding the uncut key goes; the later ones move down in order
    ensures forall i: nat :: FirstHolder(s.entries, key, i) ==>
              r == Step(s.(entries := s.entries[..i] + s.entries[i + 1..]), Success)
  {
    InKeysIffFound(s, key);
    IndexOfFindsFirst(s.entries, key);
    RemoveWith(s, key)
  }

  /** For keys that fit the name buffer, cutting changes nothing: the corrected
      set, get and remove are the C functions as written. */
  lemma AgreeOnShortKeys(s: Store, key: string, value: string)
    requires Valid(s) && |key| < MaxNameLen
    ensures Set(s, Some(key), Some(value)) == SetAsWritten(s, Some(key), Some(value))
    ensures Get(s, key) == GetAsWritten(s, key)
    ensures Remove(s, key) == RemoveAsWritten(s, key)
  {
  }

  /** A successful set is read back by get. */
  lemma SetThenGet(s: Store, key: string, value: string)
    requires Valid(s)
    requires Set(s, Some(key), Some(value)).code == Success
    ensures Get(Set(s, Some(key), Some(value)).state, key) == Some(StoredValue(value))
  {
    var s' := Set(s, Some(key), Some(value)).state;
    assert Bounded(key) in Keys(s');
  }

  /** A removed key is no longer found. */
  lemma RemoveThenGetMisses(s: Store, key: string)
    requires Valid(s)
    ensures Get(Remove(s, key).state, key).None?
  {
    assert Bounded(key) !in Keys(Remove(s, key).state);
  }

  /** The key cut by the name buffer no longer matches the caller's key: a second
      set with a 128-character key adds a second entry with the same stored key,
      a get misses, and a remove reports the key missing. */
  lemma AsWrittenLosesLongKeys()
    ensures var key := seq(128, _ => 'k');
            var s1 := SetAsWritten(Create(0), Some(key), Some("v")).state;
            var s2 := SetAsWritten(s1, Some(key), Some("v")).state;
            && GetAsWritten(s1, key).None?
            && RemoveAsWritten(s1, key) == Step(s1, ErrNotFound) && |s1.entries| == 1
            && |s2.entries| == 2
            && s2.entries[0].key == s2.entries[1].key
            && !Valid(s2)
  {
    var key := seq(128, _ => 'k');
    var s1 := SetAsWritten(Create(0), Some(key), Some("v")).state;
    assert s1.entries[0].key == key[..127] != key;
    var s2 := SetAsWritten(s1, Some(key), Some("v")).state;
    assert s2.entries[1].key == key[..127];
  }
}

=== FILE: context.dfy ===
/** The context: lifecycle state, handler registry, event queue, cache and pool,
    with its counters. Operations are state transitions over an immutable value;
    `now` stands in for `time(NULL)`. */
module Contexts {
  import opened Wrappers
  import Codes
  import opened Text
  import opened Events
  import opened Handlers
  import Queues
  import Caches
  import Pools
  import Registry
  import Dispatch

  datatype State = Idle | Initializing | Running | Paused | Stopping | ErrorState | Terminated

  datatype Context = Context(
    id: nat,
    name: string,
    state: State,
    handlers: seq<Handler>,
    handlerCount: nat,
    queue: Queues.Queue,
    cache: Caches.Cache,
    pool: Pools.Pool,
    eventCount: nat,
    totalProcessed: nat,
    startTime: int)

  /** The bookkeeping every operation keeps: the handler count is the registry's
      length, and the queue, cache and pool are within their bounds. */
  predicate Valid(ctx: Context)
  {
    && ctx.handlerCount == |ctx.handlers|
    && Queues.Valid(ctx.queue)
    && Caches.Valid(ctx.cache)
    && Pools.Valid(ctx.pool)
  }

  /** `goon_context_create`: a NULL name stands for "default"; a new context is
      idle, with no handlers, an empty 1024-event queue, an empty cache, an empty
      128-object pool and zero counters. The identifier comes from the caller. */
  function Create(id: nat, name: Option<string>, now: int): (ctx: Context)
    ensures Valid(ctx)
    ensures ctx.id == id && ctx.state == Idle && ctx.startTime == now
    ensures ctx.name == Bounded(if name.Some? then name.value else "default")
    ensures ctx.handlers == [] && ctx.queue.events == [] && ctx.queue.maxSize == Queues.DefaultMaxSize
    ensures Caches.Keys(ctx.cache) == {}
    ensures ctx.pool.slots == [] && ctx.pool.capacity == Pools.DefaultCapacity
    ensures ctx.eventCount == 0 && ctx.totalProcessed == 0
  {
    Context(id, Bounded(if name.Some? then name.value else "default"), Idle, [], 0,
            Queues.Create(Queues.DefaultMaxSize), Caches.Create(), Pools.Create(Pools.DefaultCapacity),
            0, 0, now)
  }

  /** `goon_context_set_state`: any state may follow any other. */
  function SetState(ctx: Context, s: State): (r: Codes.Step<Context>)
    ensures r.code == Codes.Success && r.state.state == s
    ensures r.state.(state := ctx.state) == ctx
  {
    Codes.Step(ctx.(state := s), Codes.Success)
  }

  /** `goon_start`, `goon_pause`, `goon_resume`: assign the target state with no
      check of the state they leave. */
  function Start(ctx: Context): (r: Codes.Step<Context>)
    ensures r.code == Codes.Success && r.state == ctx.(state := Running)
  {
    SetState(ctx, Running)
  }

  function Pause(ctx: Context): (r: Codes.Step<Context>)
    ensures r.code == Codes.Success && r.state == ctx.(state := Paused)
  {
    SetState(ctx, Paused)
  }

  function Resume(ctx: Context): (r: Codes.Step<Context>)
    ensures r.code == Codes.Success && r.state == ctx.(state := Running)
  {
    SetState(ctx, Running)
  }

  /** `goon_context_register_handler`: NULL is refused; otherwise the handler
      becomes the head of the registry and the count rises. */
  function RegisterHandler(ctx: Context, h: Option<Handler>): (r: Codes.Step<Context>)
    ensures r.code == Codes.ErrNullPtr <==> h.None?
    ensures h.None? ==> r.state == ctx
    ensures h.Some? ==> r.code == Codes.Success && r.state.handlers == [h.value] + ctx.handlers
    ensures h.Some? ==> r.state == ctx.(handlers := r.state.handlers, handlerCount := ctx.handlerCount + 1)
    ensures Valid(ctx) ==> Valid(r.state)
  {
    if h.None? then Codes.Step(ctx, Codes.ErrNullPtr)
    else
      Codes.Step(ctx.(handlers := Registry.Register(ctx.handlers, h.value),
                      handlerCount := ctx.handlerCount + 1), Codes.Success)
  }

  /** `goon_context_find_handler`: the first handler with the name, from the head. */
  function FindHandler(ctx: Context, name: string): (r: Option<Handler>)
    ensures r.None? <==> forall j :: 0 <= j < |ctx.handlers| ==> ctx.handlers[j].name != name
    ensures r.Some? ==> exists i :: 0 <= i < |ctx.handlers| && ctx.handlers[i] == r.value && r.value.name == name
                                    && forall j :: 0 <= j < i ==> ctx.handlers[j].name != name
  {
    Registry.Find(ctx.handlers, name)
  }

  /** `goon_context_unregister_handler`: drops the first handler with the name,
      or reports it missing. */
  function UnregisterHandler(ctx: Context, name: string): (r: Codes.Step<Context>)
    ensures r.code == Codes.Success || r.code == Codes.ErrNotFound
    ensures r.code == Codes.ErrNotFound <==> FindHandler(ctx, name).None?
    ensures r.code == Codes.ErrNotFound ==> r.state == ctx
    ensures r.code == Codes.Success ==>
              && r.state.handlers == Registry.Unregister(ctx.handlers, name).value
              && r.state == ctx.(handlers := r.state.handlers, handlerCount := r.state.handlerCount)
              && (Valid(ctx) ==> r.state.handlerCount == ctx.handlerCount - 1)
    ensures Valid(ctx) ==> Valid(r.state)
  {
    match Registry.Unregister(ctx.handlers, name)
    case None => Codes.Step(ctx, Codes.ErrNotFound)
    case Some(hs) =>
      Codes.Step(ctx.(handlers := hs, handlerCount := if ctx.handlerCount > 0 then ctx.handlerCount - 1 else 0),
                 Codes.Success)
  }

  /** Enabling or disabling a registered handler through `goon_context_find_handler`:
      the first handler with the name gets the flag; a missing name passes NULL,
      which is refused. */
  function SetHandlerEnabled(ctx: Context, name: string, on: bool): (r: Codes.Step<Context>)
    ensures r.code == Codes.Success || r.code == Codes.ErrNullPtr
    ensures r.code == Codes.ErrNullPtr <==> FindHandler(ctx, name).None?
    ensures r.code == Codes.ErrNullPtr ==> r.state == ctx
    ensures r.code == Codes.Success ==>
              && FindHandler(r.state, name).Some? && FindHandler(r.state, name).value.enabled == on
              && r.state == ctx.(handlers := r.state.handlers)
              && |r.state.handlers| == |ctx.handlers|
    // only the first handler with the name changes, and only in its flag
    ensures r.code == Codes.Success ==>
              exists i :: 0 <= i < |ctx.handlers| && ctx.handlers[i].name == name
                          && (forall j :: 0 <= j < i ==> ctx.handlers[j].name != name)
                          && r.state.handlers == ctx.handlers[i := SetEnabled(ctx.handlers[i], on)]
    ensures Valid(ctx) ==> Valid(r.state)
  {
    match Registry.SetEnabledByName(ctx.handlers, name, on)
    case None => Codes.Step(ctx, Codes.ErrNullPtr)
    case Some(hs) =>
      var i := Registry.IndexOf(ctx.handlers, name).value;
      assert Registry.IndexOf(hs, name) == Some(i) by {
        assert hs[i].name == name;
        assert forall j :: 0 <= j < i ==> hs[j].name != name;
      }
      Codes.Step(ctx.(handlers := hs), Codes.Success)
  }

  /** `goon_context_emit_event`: NULL is refused; otherwise the event goes to the
      queue and the emitted count rises only if the queue took it. */
  function EmitEvent(ctx: Context, e: Option<Event>): (r: Codes.Step<Context>)
    ensures e.None? ==> r == Codes.Step(ctx, Codes.ErrNullPtr)
    ensures e.Some? ==> (r.code == Codes.Success || r.code == Codes.ErrOverflow)
    ensures e.Some? ==> (r.code == Codes.ErrOverflow <==> |ctx.queue.events| >= ctx.queue.maxSize)
    ensures r.code != Codes.Success ==> r.state == ctx
    ensures r.code == Codes.Success ==>
              && r.state.queue.events == ctx.queue.events + [e.value]
              && r.state.eventCount == ctx.eventCount + 1
              && r.state == ctx.(queue := r.state.queue, eventCount := r.state.eventCount)
              && r.state.queue.maxSize == ctx.queue.maxSize
    ensures Valid(ctx) ==> Valid(r.state)
  {
    if e.None? then Codes.Step(ctx, Codes.ErrNullPtr)
    else
      var p := Queues.Push(ctx.queue, e.value);
      if p.code == Codes.Success then
        Codes.Step(ctx.(queue := p.state, eventCount := ctx.eventCount + 1), Codes.Success)
      else Codes.Step(ctx, p.code)
  }

  /** The drain loop, without the state gate: every queued event goes through the
      registry; the queue ends empty and the processed count rises by the number
      of events. */
  function DrainQueue(ctx: Context, now: int): (r: Context)
    requires Valid(ctx)
    ensures Valid(r)
    ensures r.queue.events == [] && r.queue.maxSize == ctx.queue.maxSize
    ensures r.totalProcessed == ctx.totalProcessed + |ctx.queue.events|
    ensures |r.handlers| == |ctx.handlers|
    ensures forall i :: 0 <= i < |ctx.handlers| ==>
              Dispatch.Advanced(ctx.handlers[i], r.handlers[i], ctx.queue.events)
    ensures r == ctx.(handlers := r.handlers, queue := r.queue, cache := r.cache,
                      totalProcessed := r.totalProcessed)
  {
    var d := Dispatch.Drain(ctx.queue.events, ctx.handlers, ctx.cache, now);
    ctx.(handlers := d.handlers, queue := ctx.queue.(events := []), cache := d.cache,
         totalProcessed := ctx.totalProcessed + |ctx.queue.events|)
  }

  /** `goon_context_process_events`: refused unless the context is running;
      otherwise drains the queue and returns the number of events processed. */
  function ProcessEvents(ctx: Context, now: int): (r: Codes.Step<Context>)
    requires Valid(ctx)
    ensures r.code == Codes.Error <==> ctx.state != Running
    ensures ctx.state != Running ==> r.state == ctx
    ensures ctx.state == Running ==>
              && r.code == |ctx.queue.events|
              && r.state.queue.events == []
              && r.state.totalProcessed == ctx.totalProcessed + |ctx.queue.events|
              && |r.state.handlers| == |ctx.handlers|
              && (forall i :: 0 <= i < |ctx.handlers| ==>
                    Dispatch.Advanced(ctx.handlers[i], r.state.handlers[i], ctx.queue.events))
              && r.state.queue.maxSize == ctx.queue.maxSize
              && r.state == ctx.(handlers := r.state.handlers, queue := r.state.queue,
                                 cache := r.state.cache, totalProcessed := r.state.totalProcessed)
    ensures Valid(r.state)
  {
    if ctx.state != Running then Codes.Step(ctx, Codes.Error)
    else Codes.Step(DrainQueue(ctx, now), |ctx.queue.events|)
  }

  /** `goon_stop` as written: the state becomes STOPPING before the drain is
      asked for, so the drain is refused and the queued events stay queued. */
  function StopAsWritten(ctx: Context, now: int): (r: Codes.Step<Context>)
    requires Valid(ctx)
    ensures r.code == Codes.Success && r.state.state == Terminated
  {
    var stopping := SetState(ctx, Stopping).state;
    var drained := ProcessEvents(stopping, now).state;
    SetState(drained, Terminated)
  }

  /** `goon_stop` as its comment intends: the remaining events are processed
      before the context terminates. */
  function Stop(ctx: Context, now: int): (r: Codes.Step<Context>)
    requires Valid(ctx)
    ensures r.code == Codes.Success && r.state.state == Terminated
    ensures Valid(r.state)
    ensures r.state.queue.events == []
    ensures r.state.totalProcessed == ctx.totalProcessed + |ctx.queue.events|
    ensures |r.state.handlers| == |ctx.handlers|
    ensures forall i :: 0 <= i < |ctx.handlers| ==>
              Dispatch.Advanced(ctx.handlers[i], r.state.handlers[i], ctx.queue.events)
    // only the state and what the drain touches change; the queue keeps its capacity
    ensures r.state.queue.maxSize == ctx.queue.maxSize
    ensures r.state == ctx.(state := Terminated, handlers := r.state.handlers, queue := r.state.queue,
                            cache := r.state.cache, totalProcessed := r.state.totalProcessed)
  {
    var stopping := SetState(ctx, Stopping).state;
    SetState(DrainQueue(stopping, now), Terminated)
  }

  /** The stop as written never dispatches: it only changes the state, leaving
      the queue, the statistics and the cache as they were. */
  lemma StopAsWrittenSkipsDrain(ctx: Context, now: int)
    requires Valid(ctx)
    ensures StopAsWritten(ctx, now).state == ctx.(state := Terminated)
  {
  }

  /** A running context with one pending event: the stop as written leaves it
      queued, the intended stop processes it. */
  lemma StopAsWrittenLeavesEventsQueued(ctx: Context, e: Event, now: int)
    requires Valid(ctx) && ctx.queue.events == [e]
    ensures StopAsWritten(ctx, now).state.queue.events == [e]
    ensures StopAsWritten(ctx, now).state.totalProcessed == ctx.totalProcessed
    ensures Stop(ctx, now).state.queue.events == []
    ensures Stop(ctx, now).state.totalProcessed == ctx.totalProcessed + 1
  {
  }

  /** `goon_context_clear_queue`: drops every pending event and reports success
      (not a count); nothing else changes. */
  function ClearQueue(ctx: Context): (r: Codes.Step<Context>)
    ensures r.code == Codes.Success
    ensures r.state.queue.events == [] && r.state.queue.maxSize == ctx.queue.maxSize
    ensures r.state == ctx.(queue := r.state.queue)
    ensures Valid(ctx) ==> Valid(r.state)
  {
    Codes.Step(ctx.(queue := ctx.queue.(events := [])), Codes.Success)
  }

  /** Zeroes one handler's statistics. */
  function ResetHandler(h: Handler): Handler
  {
    h.(callCount := 0, errorCount := 0)
  }

  /** `goon_context_reset_statistics`: every handler's counts and the processed
      count go to zero and the start time to `now`; the registry's order, the
      flags and the queue are kept. */
  function ResetStatistics(ctx: Context, now: int): (r: Codes.Step<Context>)
    ensures r.code == Codes.Success
    ensures |r.state.handlers| == |ctx.handlers|
    ensures forall i :: 0 <= i < |ctx.handlers| ==>
              && r.state.handlers[i].callCount == 0 && r.state.handlers[i].errorCount == 0
              && r.state.handlers[i].id == ctx.handlers[i].id
              && r.state.handlers[i].name == ctx.handlers[i].name
              && r.state.handlers[i].kind == ctx.handlers[i].kind
              && r.state.handlers[i].enabled == ctx.handlers[i].enabled
    ensures r.state.totalProcessed == 0 && r.state.startTime == now
    ensures r.state == ctx.(handlers := r.state.handlers, totalProcessed := 0, startTime := now)
    ensures Valid(ctx) ==> Valid(r.state)
  {
    Codes.Step(ctx.(handlers := seq(|ctx.handlers|, i requires 0 <= i < |ctx.handlers| => ResetHandler(ctx.handlers[i])),
                    totalProcessed := 0, startTime := now),
               Codes.Success)
  }

  /** The events of a batch that are not NULL, in order. */
  function Present<T>(xs: seq<Option<T>>): (r: seq<T>)
    ensures |r| <= |xs|
  {
    if |xs| == 0 then []
    else (if xs[0].Some? then [xs[0].value] else []) + Present(xs[1..])
  }

  /** `Present` keeps exactly the values that are not NULL. */
  lemma {:induction false} PresentKeepsValues<T>(xs: seq<Option<T>>)
    ensures forall i :: 0 <= i < |xs| && xs[i].Some? ==> xs[i].value in Present(xs)
    ensures forall j :: 0 <= j < |Present(xs)| ==> Some(Present(xs)[j]) in xs
    decreases |xs|
  {
    if |xs| > 0 {
      PresentKeepsValues(xs[1..]);
      assert forall i :: 1 <= i < |xs| ==> xs[i] == xs[1..][i - 1];
    }
  }

  /** `Present` keeps the order of the batch: the non-NULL values of two
      consecutive parts come out one part after the other. */
  lemma {:induction false} PresentSplits<T>(a: seq<Option<T>>, b: seq<Option<T>>)
    ensures Present(a + b) == Present(a) + Present(b)
    decreases |a|
  {
    if |a| > 0 {
      assert (a + b)[1..] == a[1..] + b;
      PresentSplits(a[1..], b);
    } else {
      assert a + b == b;
    }
  }

  function Min(a: int, b: int): int
  {
    if a <= b then a else b
  }

  /** `goon_context_emit_batch`: emits the non-NULL events in order and counts
      the ones the queue took. Once the queue is full it stays full, so the
      accepted events are the first ones that fit. */
  function EmitBatch(ctx: Context, es: seq<Option<Event>>): (r: (Context, nat))
    requires Valid(ctx)
    ensures Valid(r.0)
    ensures var room := ctx.queue.maxSize - |ctx.queue.events|;
            && r.1 == Min(room, |Present(es)|)
            && r.0.queue.events == ctx.queue.events + Present(es)[..r.1]
            && r.0.eventCount == ctx.eventCount + r.1
    ensures r.0 == ctx.(queue := r.0.queue, eventCount := r.0.eventCount)
    ensures r.0.queue.maxSize == ctx.queue.maxSize
    decreases |es|
  {
    if |es| == 0 then (ctx, 0)
    else if es[0].None? then
      assert Present(es) == Present(es[1..]);
      EmitBatch(ctx, es[1..])
    else
      var s := EmitEvent(ctx, es[0]);
      var rest := EmitBatch(s.state, es[1..]);
      var n := rest.1 + if s.code == Codes.Success then 1 else 0;
      assert Present(es) == [es[0].value] + Present(es[1..]);
      if s.code == Codes.Success then
        assert ctx.queue.events + Present(es)[..n]
            == (ctx.queue.events + [es[0].value]) + Present(es[1..])[..rest.1];
        (rest.0, n)
      else
        (rest.0, n)
  }

  function Reverse<T>(xs: seq<T>): (r: seq<T>)
    ensures |r| == |xs|
    ensures forall i :: 0 <= i < |xs| ==> r[i] == xs[|xs| - 1 - i]
  {
    if |xs| == 0 then [] else Reverse(xs[1..]) + [xs[0]]
  }

  lemma PresentCons<T>(xs: seq<Option<T>>)
    requires |xs| > 0 && xs[0].Some?
    ensures Present(xs) == [xs[0].value] + Present(xs[1..])
    ensures Reverse(Present(xs)) == Reverse(Present(xs[1..])) + [xs[0].value]
  {
    var p := Present(xs);
    assert p[1..] == Present(xs[1..]);
  }

  /** Putting the first present handler ahead of `tail`, then the rest of the
      batch ahead of that, is putting the whole batch, reversed, ahead of `tail`. */
  lemma BatchPrepends(hs: seq<Option<Handler>>, tail: seq<Handler>)
    requires |hs| > 0 && hs[0].Some?
    ensures Reverse(Present(hs[1..])) + ([hs[0].value] + tail) == Reverse(Present(hs)) + tail
  {
    PresentCons(hs);
    Regroup(Reverse(Present(hs[1..])), [hs[0].value], tail);
  }

  lemma Regroup<T>(a: seq<T>, b: seq<T>, c: seq<T>)
    ensures a + (b + c) == (a + b) + c
  {
  }

  /** `goon_context_register_batch`: registers the non-NULL handlers in order,
      each becoming the new head, so they end up ahead of the old registry in
      reverse order. */
  function RegisterBatch(ctx: Context, hs: seq<Option<Handler>>): (r: (Context, nat))
    ensures r.1 == |Present(hs)|
    ensures r.0.handlers == Reverse(Present(hs)) + ctx.handlers
    ensures r.0 == ctx.(handlers := r.0.handlers, handlerCount := ctx.handlerCount + r.1)
    ensures Valid(ctx) ==> Valid(r.0)
    decreases |hs|
  {
    if |hs| == 0 then (ctx, 0)
    else if hs[0].None? then
      assert Present(hs) == Present(hs[1..]);
      RegisterBatch(ctx, hs[1..])
    else
      var s := RegisterHandler(ctx, hs[0]);
      var rest := RegisterBatch(s.state, hs[1..]);
      PresentCons(hs);
      BatchPrepends(hs, ctx.handlers);
      (rest.0, rest.1 + 1)
  }

  /** Scenario: an idle context refuses to process; once started it processes
      every pending event. */
  lemma StartEnablesProcessing(ctx: Context, now: int)
    requires Valid(ctx) && ctx.state == Idle
    ensures ProcessEvents(ctx, now) == Codes.Step(ctx, Codes.Error)
    ensures ProcessEvents(Start(ctx).state, now).code == |ctx.queue.events|
  {
  }

  /** Pausing stops processing and resuming restores it. */
  lemma PauseBlocksResumeRestores(ctx: Context, now: int)
    requires Valid(ctx)
    ensures ProcessEvents(Pause(ctx).state, now).code == Codes.Error
    ensures ProcessEvents(Resume(Pause(ctx).state).state, now).code == |ctx.queue.events|
  {
  }

  /** After clearing the queue, processing a running context does nothing. */
  lemma ClearThenProcess(ctx: Context, now: int)
    requires Valid(ctx) && ctx.state == Running
    ensures var c := ClearQueue(ctx).state;
            ProcessEvents(c, now).code == 0 && ProcessEvents(c, now).state.handlers == c.handlers
  {
    var c := ClearQueue(ctx).state;
    var r := ProcessEvents(c, now).state;
    forall i | 0 <= i < |c.handlers| ensures r.handlers[i] == c.handlers[i] {
      assert Dispatch.Advanced(c.handlers[i], r.handlers[i], []);
      assert Dispatch.Failures(c.handlers[i].kind, []) == 0;
    }
  }

  /** Resetting the statistics twice is resetting them once. */
  lemma ResetIsIdempotent(ctx: Context, now: int)
    ensures ResetStatistics(ResetStatistics(ctx, now).state, now) == ResetStatistics(ctx, now)
  {
    var once := ResetStatistics(ctx, now).state;
    var twice := ResetStatistics(once, now).state;
    assert twice.handlers == once.handlers;
  }
}

=== FILE: dispatch.dfy ===
/** The drain loop of `goon_context_process_events`: every queued event, in
    queue order, visits every registered handler from the head; each enabled
    handler is called, its call count rises, and a non-success result raises its
    error count without stopping the handlers after it. The callbacks cannot emit
    events, so the loop ends with the queue. Timing statistics are not modelled. */
module Dispatch {
  import opened Wrappers
  import opened Codes
  import opened Text
  import opened Events
  import opened Handlers
  import Caches

  /** The number of events in `es` on which a handler of kind `k` fails. */
  function Failures(k: HandlerKind, es: seq<Event>): (n: nat)
    ensures n <= |es|
    decreases |es|
  {
    if |es| == 0 then 0 else (if Fails(k, es[0]) then 1 else 0) + Failures(k, es[1..])
  }

  /** `h'` is `h` after the events `es` were dispatched: its identity, callback
      and flag are unchanged; a disabled handler is untouched; an enabled one was
      called once per event and failed at most once per event, exactly on the
      failing events when its callback's result is decided by the event. */
  predicate Advanced(h: Handler, h': Handler, es: seq<Event>)
  {
    && h'.id == h.id && h'.name == h.name && h'.kind == h.kind && h'.enabled == h.enabled
    && (!h.enabled ==> h' == h)
    && (h.enabled ==>
          && h'.callCount == h.callCount + |es|
          && h.errorCount <= h'.errorCount <= h.errorCount + |es|
          && (Decided(h.kind) ==> h'.errorCount == h.errorCount + Failures(h.kind, es)))
  }

  datatype Round = Round(handlers: seq<Handler>, event: Event, cache: Caches.Cache)

  /** One event through the registry, head to tail. */
  function Visit(hs: seq<Handler>, e: Event, c: Caches.Cache, now: int): (r: Round)
    requires Caches.Valid(c)
    ensures |r.handlers| == |hs|
    ensures forall i :: 0 <= i < |hs| ==> Advanced(hs[i], r.handlers[i], [e])
    ensures SameShape(e, r.event)
    ensures Caches.Valid(r.cache)
    decreases |hs|
  {
    if |hs| == 0 then Round([], e, c)
    else
      var h := hs[0];
      if h.enabled then
        var out := Invoke(h.kind, e, c, now);
        var h' := h.(callCount := h.callCount + 1,
                     errorCount := h.errorCount + if out.code != Success then 1 else 0);
        var rest := Visit(hs[1..], out.event, out.cache, now);
        CallAdvances(h, e, out.code);
        AdvancedOnSameShape(hs[1..], rest.handlers, e, out.event);
        AdvancedCons(hs, h', rest.handlers, e);
        Round([h'] + rest.handlers, rest.event, rest.cache)
      else
        var rest := Visit(hs[1..], e, c, now);
        AdvancedCons(hs, h, rest.handlers, e);
        Round([h] + rest.handlers, rest.event, rest.cache)
  }

  /** One call of an enabled handler advances it by one event. */
  lemma CallAdvances(h: Handler, e: Event, code: int)
    requires h.enabled
    requires Decided(h.kind) ==> (code != Success <==> Fails(h.kind, e))
    ensures Advanced(h, h.(callCount := h.callCount + 1,
                           errorCount := h.errorCount + if code != Success then 1 else 0), [e])
  {
    assert Failures(h.kind, [e]) == if Fails(h.kind, e) then 1 else 0;
  }

  /** The head's advance and the advances of the rest make the whole registry's. */
  lemma AdvancedCons(hs: seq<Handler>, h': Handler, rest: seq<Handler>, e: Event)
    requires |hs| > 0 && |rest| == |hs| - 1
    requires Advanced(hs[0], h', [e])
    requires forall i :: 0 <= i < |rest| ==> Advanced(hs[1..][i], rest[i], [e])
    ensures forall i :: 0 <= i < |hs| ==> Advanced(hs[i], ([h'] + rest)[i], [e])
  {
    forall i | 0 <= i < |hs|
      ensures Advanced(hs[i], ([h'] + rest)[i], [e])
    {
      if i > 0 {
        assert hs[i] == hs[1..][i - 1] && ([h'] + rest)[i] == rest[i - 1];
      }
    }
  }

  /** A handler's failures depend on the event's shape only, so an advance over
      an event is an advance over any event of the same shape. */
  lemma AdvancedOnSameShape(hs: seq<Handler>, hs': seq<Handler>, e: Event, e': Event)
    requires SameShape(e, e') && |hs'| == |hs|
    requires forall i :: 0 <= i < |hs| ==> Advanced(hs[i], hs'[i], [e'])
    ensures forall i :: 0 <= i < |hs| ==> Advanced(hs[i], hs'[i], [e])
  {
    forall k
      ensures Failures(k, [e']) == Failures(k, [e])
    {
      assert Fails(k, e') == Fails(k, e);
    }
  }

  /** Dispatch results add up over consecutive events. */
  lemma AdvancedChains(h: Handler, h1: Handler, h2: Handler, e: Event, es: seq<Event>)
    requires Advanced(h, h1, [e]) && Advanced(h1, h2, es)
    ensures Advanced(h, h2, [e] + es)
  {
    assert ([e] + es)[1..] == es;
  }

  /** `AdvancedChains` for every handler of a registry. */
  lemma AdvancedChainsAll(hs: seq<Handler>, mid: seq<Handler>, out: seq<Handler>, es: seq<Event>)
    requires |es| > 0 && |mid| == |hs| && |out| == |hs|
    requires forall i :: 0 <= i < |hs| ==> Advanced(hs[i], mid[i], [es[0]])
    requires forall i :: 0 <= i < |hs| ==> Advanced(mid[i], out[i], es[1..])
    ensures forall i :: 0 <= i < |hs| ==> Advanced(hs[i], out[i], es)
  {
    assert es == [es[0]] + es[1..];
    forall i | 0 <= i < |hs|
      ensures Advanced(hs[i], out[i], es)
    {
      AdvancedChains(hs[i], mid[i], out[i], es[0], es[1..]);
    }
  }

  datatype Drained = Drained(handlers: seq<Handler>, cache: Caches.Cache)

  /** The events `es`, in order, each through the whole registry. */
  function Drain(es: seq<Event>, hs: seq<Handler>, c: Caches.Cache, now: int): (r: Drained)
    requires Caches.Valid(c)
    ensures |r.handlers| == |hs|
    ensures forall i :: 0 <= i < |hs| ==> Advanced(hs[i], r.handlers[i], es)
    ensures Caches.Valid(r.cache)
    decreases |es|
  {
    if |es| == 0 then Drained(hs, c)
    else
      var v := Visit(hs, es[0], c, now);
      var rest := Drain(es[1..], v.handlers, v.cache, now);
      AdvancedChainsAll(hs, v.handlers, rest.handlers, es);
      rest
  }

  /** Handlers run from the head of the registry, each on the event the one
      before it left. With a transformer ahead of a cache writer, the writer stores
      the upper-cased payload; with the writer ahead, it stores the payload as
      emitted. */
  lemma RegistryOrderDecidesWhatIsCached(t: Handler, w: Handler, e: Event, c: Caches.Cache, now: int)
    requires Caches.Valid(c)
    requires t.enabled && t.kind == Transformer && w.enabled && w.kind == CacheWriter
    requires e.data.Some? && e.data.value.kind == StringData && e.data.value.value.Some?
    ensures Caches.Get(Visit([t, w], e, c, now).cache, e.name, now).1
              == Some(UpperUntilNul(e.data.value.value.value))
    ensures Caches.Get(Visit([w, t], e, c, now).cache, e.name, now).1
              == Some(e.data.value.value.value)
  {
    var up := Invoke(Transformer, e, c, now);
    assert [t, w][1..] == [w] && [w, t][1..] == [t];
    assert Visit([t, w], e, c, now).cache == Visit([w], up.event, c, now).cache;
    assert Visit([w], up.event, c, now).cache == WriteToCache(up.event, c, now);
    var c1 := WriteToCache(e, c, now);
    assert Visit([w, t], e, c, now).cache == Visit([t], e, c1, now).cache;
    assert Visit([t], e, c1, now).cache == c1;
  }

  /** Events are taken in queue order: when two events with the same name reach
      a cache writer, the value left in the cache is the later event's. */
  lemma QueueOrderDecidesWhatIsCached(w: Handler, e1: Event, e2: Event, c: Caches.Cache, now: int)
    requires Caches.Valid(c) && w.enabled && w.kind == CacheWriter
    requires e1.name == e2.name
    requires e1.data.Some? && e1.data.value.value.Some?
    requires e2.data.Some? && e2.data.value.value.Some?
    ensures Caches.Get(Drain([e1, e2], [w], c, now).cache, e1.name, now).1 == Some(e2.data.value.value.value)
  {
    assert [w][1..] == [];
    var o1 := Invoke(CacheWriter, e1, c, now);
    assert Visit([], o1.event, o1.cache, now).cache == o1.cache;
    var v1 := Visit([w], e1, c, now);
    assert v1.cache == o1.cache == WriteToCache(e1, c, now);
    assert Advanced(w, v1.handlers[0], [e1]);
    var w1 := v1.handlers[0];
    assert v1.handlers == [w1] && w1.kind == CacheWriter && w1.enabled;
    assert [w1][1..] == [];
    var o2 := Invoke(CacheWriter, e2, v1.cache, now);
    assert Visit([], o2.event, o2.cache, now).cache == o2.cache;
    var v2 := Visit([w1], e2, v1.cache, now);
    assert v2.cache == o2.cache == WriteToCache(e2, v1.cache, now);
    assert [e1, e2][1..] == [e2];
    assert Drain([e1, e2], [w], c, now).cache == Drain([e2], v1.handlers, v1.cache, now).cache;
    assert Drain([e2], v1.handlers, v1.cache, now).cache == v2.cache;
  }

  /** A callback with a fixed result fails on every event or on none. */
  lemma {:induction false} ConstantFailures(code: int, es: seq<Event>)
    ensures Failures(Constant(code), es) == if code != Success then |es| else 0
    decreases |es|
  {
    if |es| > 0 {
      ConstantFailures(code, es[1..]);
    }
  }

  /** With no handler enabled, dispatch changes no handler. */
  lemma DisabledRegistryUntouched(es: seq<Event>, hs: seq<Handler>, c: Caches.Cache, now: int)
    requires Caches.Valid(c)
    requires forall i :: 0 <= i < |hs| ==> !hs[i].enabled
    ensures Drain(es, hs, c, now).handlers == hs
  {
    var r := Drain(es, hs, c, now);
    forall i | 0 <= i < |hs| ensures r.handlers[i] == hs[i] {
      assert Advanced(hs[i], r.handlers[i], es);
    }
  }
}

=== FILE: events.dfy ===
/** Events and their payloads. */
module Events {
  import opened Wrappers
  import opened Text

  /** `goon_priority_t`. The field of an event is a plain int, because the C enum
      can carry any integer after a cast; the validator handler checks the range. */
  const PriorityLow: int := 0
  const PriorityNormal: int := 1
  const PriorityHigh: int := 2
  const PriorityCritical: int := 3

  datatype DataKind = IntData | FloatData | StringData | PointerData | BoolData | CustomData

  /** A payload: its kind and its value buffer, `None` when the value pointer is NULL.
      The byte length of the buffer is its size. */
  datatype Payload = Payload(kind: DataKind, value: Option<seq<byte>>)

  datatype Event = Event(id: nat, name: string, priority: int, stamp: int, data: Option<Payload>)

  /** `goon_event_create`: the name is cut to the name buffer, the creation time
      is `now`, and there is no payload yet. The identifier comes from the caller. */
  function Create(id: nat, name: string, priority: int, now: int): (e: Event)
    ensures e.name == Bounded(name) && |e.name| < MaxNameLen
    ensures e.id == id && e.priority == priority && e.stamp == now
    ensures e.data.None?
  {
    Event(id, Bounded(name), priority, now, None)
  }

  /** Two events that agree on everything except the bytes of a payload value:
      the only thing a handler may change in an event it is given. */
  predicate SameShape(e: Event, e': Event)
  {
    && e'.id == e.id
    && e'.name == e.name
    && e'.priority == e.priority
    && e'.stamp == e.stamp
    && e'.data.Some? == e.data.Some?
    && (e.data.Some? ==> e'.data.value.kind == e.data.value.kind
                         && e'.data.value.value.Some? == e.data.value.value.Some?)
  }
}

=== FILE: handlers.dfy ===
/** Handlers and the example handler functions. A handler's callback and its
    borrowed user data are one value of the closed type `HandlerKind`; the
    callbacks that only print, and the ones that keep static state or read the
    clock, are not part of this model. `Constant` stands for any other callback
    that returns a fixed code and touches nothing. */
module Handlers {
  import opened Wrappers
  import opened Codes
  import opened Text
  import opened Events
  import Caches

  datatype HandlerKind =
    | Validator
    | Filter(prefix: Option<string>)
    | Transformer
    | DuplicateDetector
    | CacheWriter
    | Constant(result: int)

  datatype Handler = Handler(
    id: nat, name: string, kind: HandlerKind, enabled: bool, callCount: nat, errorCount: nat)

  /** `goon_handler_create`: a NULL name or callback is refused (an empty name is
      accepted); the name is cut to the name buffer; a new handler is enabled and
      has no statistics. The identifier comes from the caller. */
  function Create(id: nat, name: Option<string>, kind: Option<HandlerKind>): (r: Option<Handler>)
    ensures r.None? <==> name.None? || kind.None?
    ensures r.Some? ==>
              && r.value.id == id && r.value.name == Bounded(name.value) && r.value.kind == kind.value
              && r.value.enabled && r.value.callCount == 0 && r.value.errorCount == 0
  {
    if name.None? || kind.None? then None
    else Some(Handler(id, Bounded(name.value), kind.value, true, 0, 0))
  }

  /** `goon_handler_enable` / `goon_handler_disable`: only the flag changes. */
  function SetEnabled(h: Handler, on: bool): (h': Handler)
    ensures h'.enabled == on
    ensures h'.id == h.id && h'.name == h.name && h'.kind == h.kind
    ensures h'.callCount == h.callCount && h'.errorCount == h.errorCount
  {
    h.(enabled := on)
  }

  /** What a call leaves behind: the status code, the event (whose payload bytes a
      transformer may have rewritten in place) and the cache. */
  datatype Outcome = Outcome(code: int, event: Event, cache: Caches.Cache)

  /** `goon_handler_validator`: an event needs a non-empty name and a priority
      within the enum's range. */
  function Validate(e: Event): (code: int)
    ensures code == Success || code == ErrInvalidParam
    ensures code == Success <==> e.name != [] && PriorityLow <= e.priority <= PriorityCritical
  {
    if |e.name| == 0 then ErrInvalidParam
    else if e.priority < PriorityLow || e.priority > PriorityCritical then ErrInvalidParam
    else Success
  }

  /** `goon_handler_filter`: with no prefix everything passes; otherwise
      `strncmp(name, prefix, strlen(prefix))` must find the prefix. */
  function FilterByPrefix(prefix: Option<string>, e: Event): (code: int)
    ensures code == Success || code == Error
    ensures prefix.None? ==> code == Success
    ensures prefix.Some? && NulFree(prefix.value) && NulFree(e.name) ==>
              (code == Success <==> prefix.value <= e.name)
  {
    if prefix.None? then Success
    else
      assert NulFree(prefix.value) && NulFree(e.name) ==>
               (StrNEqual(e.name, prefix.value, |prefix.value|) <==> prefix.value <= e.name) by {
        if NulFree(prefix.value) && NulFree(e.name) {
          StrNEqualIsPrefix(e.name, prefix.value);
        }
      }
      if StrNEqual(e.name, prefix.value, |prefix.value|) then Success else Error
  }

  function UpperByte(b: byte): byte
  {
    if 'a' as byte <= b <= 'z' as byte then b - 'a' as byte + 'A' as byte else b
  }

  /** `strlen` of a byte buffer: the index of the first NUL, or the buffer's end. */
  function NulIndex(s: seq<byte>): (n: nat)
    ensures n <= |s|
    ensures forall i :: 0 <= i < n ==> s[i] != 0
    ensures n < |s| ==> s[n] == 0
  {
    if |s| == 0 then 0 else if s[0] == 0 then 0 else 1 + NulIndex(s[1..])
  }

  /** The transformer's loop: ASCII lower-case letters before the first NUL
      become upper-case; every other byte stays. */
  function UpperUntilNul(s: seq<byte>): (r: seq<byte>)
    ensures |r| == |s|
    ensures forall i :: 0 <= i < |s| ==> r[i] == if i < NulIndex(s) then UpperByte(s[i]) else s[i]
  {
    if |s| == 0 then []
    else if s[0] == 0 then s
    else [UpperByte(s[0])] + UpperUntilNul(s[1..])
  }

  /** Upper-casing twice is upper-casing once. */
  lemma UpperUntilNulIdempotent(s: seq<byte>)
    ensures UpperUntilNul(UpperUntilNul(s)) == UpperUntilNul(s)
  {
    var r := UpperUntilNul(s);
    assert NulIndex(r) == NulIndex(s) by {
      if NulIndex(s) < |s| {
        assert r[NulIndex(s)] == 0;
      }
    }
  }

  /** `goon_handler_transformer`: fails on an event without a payload; upper-cases
      a string payload's value in place. */
  function Transform(e: Event): (r: (int, Event))
    ensures r.0 == Success || r.0 == ErrNullPtr
    ensures r.0 == ErrNullPtr <==> e.data.None?
    ensures SameShape(e, r.1)
    ensures e.data.Some? && e.data.value.kind == StringData && e.data.value.value.Some? ==>
              r.1.data.value.value.value == UpperUntilNul(e.data.value.value.value)
    ensures !(e.data.Some? && e.data.value.kind == StringData && e.data.value.value.Some?) ==> r.1 == e
  {
    match e.data
    case None => (ErrNullPtr, e)
    case Some(d) =>
      if d.kind == StringData && d.value.Some? then
        (Success, e.(data := Some(d.(value := Some(UpperUntilNul(d.value.value))))))
      else (Success, e)
  }

  /** The key `snprintf(key, 144, "event_%s", name)` builds. */
  function DetectorKey(name: string): string
  {
    Clip("event_" + name, MaxNameLen + 15)
  }

  /** The marker value stored for a seen event: the bytes of the int 1
      (little-endian). */
  const Marker: seq<byte> := [1, 0, 0, 0]

  /** `goon_handler_duplicate_detector`: an event whose key the cache holds is a
      duplicate (and the lookup refreshes the key); otherwise the key is stored. */
  function Detect(e: Event, c: Caches.Cache, now: int): (r: (int, Caches.Cache))
    requires Caches.Valid(c)
    ensures r.0 == Success || r.0 == Error
    ensures r.0 == Error <==> Bounded(DetectorKey(e.name)) in Caches.Keys(c)
    ensures Caches.Valid(r.1)
    ensures Bounded(DetectorKey(e.name)) in Caches.Keys(r.1)
    // a repeat only refreshes the key's timestamp
    ensures r.0 == Error ==> Caches.RefreshedIn(c, Bounded(DetectorKey(e.name)), now, r.1)
    // a first sighting stores the marker under the key, and no other slot but the evicted one changes
    ensures r.0 == Success ==> Caches.StoredIn(c, Bounded(DetectorKey(e.name)), Marker, now, r.1)
    ensures r.0 == Success ==> Caches.Get(r.1, DetectorKey(e.name), now).1 == Some(Marker)
  {
    var key := DetectorKey(e.name);
    var g := Caches.Get(c, key, now);
    if g.1.Some? then
      Caches.GetRefreshes(c, key, now);
      (Error, g.0)
    else
      Caches.SetThenGet(c, key, Marker, now, now);
      Caches.SetStores(c, key, Marker, now);
      (Success, Caches.Set(c, Some(key), Some(Marker), now).state)
  }

  /** `goon_handler_cache_writer`: stores a payload's value under the event's
      name; it always reports success. */
  function WriteToCache(e: Event, c: Caches.Cache, now: int): (r: Caches.Cache)
    requires Caches.Valid(c)
    ensures Caches.Valid(r)
    ensures e.data.Some? && e.data.value.value.Some? ==>
              Caches.Get(r, e.name, now).1 == Some(e.data.value.value.value)
    ensures e.data.Some? && e.data.value.value.Some? ==>
              Caches.StoredIn(c, Bounded(e.name), e.data.value.value.value, now, r)
    ensures !(e.data.Some? && e.data.value.value.Some?) ==> r == c
  {
    if e.data.Some? && e.data.value.value.Some? then
      Caches.SetThenGet(c, e.name, e.data.value.value.value, now, now);
      Caches.SetStores(c, e.name, e.data.value.value.value, now);
      Caches.Set(c, Some(e.name), Some(e.data.value.value.value), now).state
    else c
  }

  /** Whether a callback's result is decided by the event's shape alone, and
      then whether it fails. The duplicate detector depends on the cache. */
  predicate Decided(k: HandlerKind)
  {
    !k.DuplicateDetector?
  }

  predicate Fails(k: HandlerKind, e: Event)
  {
    match k
    case Validator => e.name == [] || e.priority < PriorityLow || e.priority > PriorityCritical
    case Filter(p) => p.Some? && !StrNEqual(e.name, p.value, |p.value|)
    case Transformer => e.data.None?
    case DuplicateDetector => false
    case CacheWriter => false
    case Constant(code) => code != Success
  }

  /** One call of a handler's callback on an event, with the context's cache. */
  function Invoke(k: HandlerKind, e: Event, c: Caches.Cache, now: int): (r: Outcome)
    requires Caches.Valid(c)
    ensures SameShape(e, r.event)
    ensures Caches.Valid(r.cache)
    ensures Decided(k) ==> (r.code != Success <==> Fails(k, e))
    ensures k.DuplicateDetector? ==> (r.code != Success <==> Bounded(DetectorKey(e.name)) in Caches.Keys(c))
    ensures !k.Transformer? ==> r.event == e
    ensures !k.DuplicateDetector? && !k.CacheWriter? ==> r.cache == c
  {
    match k
    case Validator => Outcome(Validate(e), e, c)
    case Filter(p) => Outcome(FilterByPrefix(p, e), e, c)
    case Transformer => var t := Transform(e); Outcome(t.0, t.1, c)
    case DuplicateDetector => var d := Detect(e, c, now); Outcome(d.0, e, d.1)
    case CacheWriter => Outcome(Success, e, WriteToCache(e, c, now))
    case Constant(code) => Outcome(code, e, c)
  }

  /** The detector flags the second sighting of the same event. */
  lemma DetectorFlagsRepeat(e: Event, c: Caches.Cache, now: int, later: int)
    requires Caches.Valid(c)
    ensures Detect(e, Detect(e, c, now).1, later).0 == Error
  {
  }
}

=== FILE: links.dfy ===
/** The handler registry as the C code keeps it: an intrusive singly linked
    list. Each handler node carries its own `next` pointer and the context holds
    the head. The `Registry` module models the list by the sequence of nodes a
    walk from the head visits; this module models the pointers themselves, which
    is where registering a handler twice goes wrong. */
module Links {
  import opened Wrappers
  import opened Codes

  /** A handler node, identified by its address. */
  type Node = nat

  /** The `next` pointer of every linked node. */
  type NextMap = map<Node, Option<Node>>

  /** The nodes' `next` pointers and the context's head pointer. */
  datatype List = List(next: NextMap, head: Option<Node>)

  /** A node's `next` pointer; a node never linked has a NULL one. */
  function Next(m: NextMap, n: Node): Option<Node>
  {
    if n in m then m[n] else None
  }

  /** Where the walk `handler = handler->next` stands after `hops` steps from
      `from`; once it reaches NULL it stays there. */
  function After(m: NextMap, from: Option<Node>, hops: nat): Option<Node>
    decreases hops
  {
    if hops == 0 || from.None? then from else After(m, Next(m, from.value), hops - 1)
  }

  /** The nodes the walk visits in its first `hops` steps from `from`. */
  function Nodes(m: NextMap, from: Option<Node>, hops: nat): (r: seq<Node>)
    ensures |r| <= hops
    decreases hops
  {
    if hops == 0 || from.None? then [] else [from.value] + Nodes(m, Next(m, from.value), hops - 1)
  }

  /** Walking `a + b` steps is walking `a` steps, then `b` more. */
  lemma {:induction false} AfterAdd(m: NextMap, from: Option<Node>, a: nat, b: nat)
    ensures After(m, from, a + b) == After(m, After(m, from, a), b)
    decreases a
  {
    if a > 0 && from.Some? {
      AfterAdd(m, Next(m, from.value), a - 1, b);
    }
  }

  /** A walk that comes back to `h` after `p` steps never reaches NULL. */
  lemma {:induction false} CycleNeverEnds(m: NextMap, h: Node, p: nat, n: nat)
    requires p > 0 && After(m, Some(h), p) == Some(h)
    ensures After(m, Some(h), n).Some?
    decreases n
  {
    if n >= p {
      AfterAdd(m, Some(h), p, n - p);
      CycleNeverEnds(m, h, p, n - p);
    } else {
      AfterAdd(m, Some(h), n, p - n);
      assert After(m, None, p - n) == None;
    }
  }

  /** Re-pointing a node the walk does not visit changes neither where the walk
      goes nor what it visits. */
  lemma {:induction false} UnvisitedNodeUnused(m: NextMap, h: Node, x: Option<Node>, from: Option<Node>, hops: nat)
    requires h !in Nodes(m, from, hops)
    ensures After(m[h := x], from, hops) == After(m, from, hops)
    ensures Nodes(m[h := x], from, hops) == Nodes(m, from, hops)
    decreases hops
  {
    if hops > 0 && from.Some? {
      assert from.value != h;
      assert Next(m[h := x], from.value) == Next(m, from.value);
      UnvisitedNodeUnused(m, h, x, Next(m, from.value), hops - 1);
    }
  }

  /** A node pointing at itself is where the walk stays. */
  lemma {:induction false} SelfLoopStays(m: NextMap, h: Node, n: nat)
    requires Next(m, h) == Some(h)
    ensures After(m, Some(h), n) == Some(h)
    decreases n
  {
    if n > 0 {
      SelfLoopStays(m, h, n - 1);
    }
  }

  /** `goon_context_register_handler` as written: the node is pointed at the old
      head and becomes the head, with no check that it is already linked. */
  function RegisterAsWritten(l: List, h: Node): (r: List)
    ensures r.head == Some(h) && Next(r.next, h) == l.head
    ensures forall n :: n != h ==> Next(r.next, n) == Next(l.next, n)
  {
    List(l.next[h := l.head], Some(h))
  }

  /** Registering a node that the walk from the head first reaches after `k`
      steps closes a cycle through it: from the new head the walk never reaches
      NULL, so find, unregister and the drain loop never end. */
  lemma ReRegisterLoops(l: List, h: Node, k: nat)
    requires After(l.next, l.head, k) == Some(h) && h !in Nodes(l.next, l.head, k)
    ensures var r := RegisterAsWritten(l, h);
            forall n :: After(r.next, r.head, n).Some?
  {
    var r := RegisterAsWritten(l, h);
    UnvisitedNodeUnused(l.next, h, l.head, l.head, k);
    assert After(r.next, Some(h), k + 1) == After(r.next, l.head, k);
    forall n
      ensures After(r.next, r.head, n).Some?
    {
      CycleNeverEnds(r.next, h, k + 1, n);
    }
  }

  /** Registering the same handler twice in a row points it at itself, and the
      walk from the head stays on it forever. */
  lemma DoubleRegisterLoops(l: List, h: Node)
    ensures var r := RegisterAsWritten(RegisterAsWritten(l, h), h);
            && Next(r.next, h) == Some(h)
            && forall n :: After(r.next, r.head, n) == Some(h)
  {
    var r := RegisterAsWritten(RegisterAsWritten(l, h), h);
    forall n
      ensures After(r.next, r.head, n) == Some(h)
    {
      SelfLoopStays(r.next, h, n);
    }
  }

  /** Registration as intended: a node already among the first `count` nodes of
      the list (`count` is the context's handler count) is refused with the
      invalid-parameter code. A list that ends within `count` steps then ends
      within `count + 1`, and lists the new node ahead of the old ones, as
      `Registry.Register` does on sequences. */
  function RegisterChecked(l: List, h: Node, count: nat): (r: Step<List>)
    ensures r.code == Success || r.code == ErrInvalidParam
    ensures r.code == ErrInvalidParam <==> h in Nodes(l.next, l.head, count)
    ensures r.code != Success ==> r.state == l
    ensures r.code == Success ==> r.state.head == Some(h)
    ensures r.code == Success && After(l.next, l.head, count) == None ==>
              && After(r.state.next, r.state.head, count + 1) == None
              && Nodes(r.state.next, r.state.head, count + 1) == [h] + Nodes(l.next, l.head, count)
  {
    if h in Nodes(l.next, l.head, count) then Step(l, ErrInvalidParam)
    else
      UnvisitedNodeUnused(l.next, h, l.head, l.head, count);
      Step(RegisterAsWritten(l, h), Success)
  }
}

=== FILE: pool.dfy ===
/** The object pool (`goon_pool_*`). The parallel `objects` and `in_use` arrays
    are one sequence of slots. An object is identified by its address; a fresh
    address comes from the allocator, which the caller supplies as `newObj`. */
module Pools {
  import opened Wrappers
  import opened Search
  import opened Codes

  const DefaultCapacity: nat := 128

  type ObjId = nat

  /** A slot remembers the size the object was allocated with. */
  datatype Slot = Slot(obj: ObjId, allocSize: nat, inUse: bool)

  datatype Pool = Pool(slots: seq<Slot>, capacity: nat)

  predicate Distinct(ss: seq<Slot>)
  {
    forall i, j :: 0 <= i < j < |ss| ==> ss[i].obj != ss[j].obj
  }

  /** No more slots than the capacity, and no address in two slots. */
  predicate Valid(p: Pool)
  {
    0 < p.capacity && |p.slots| <= p.capacity && Distinct(p.slots)
  }

  /** The objects the pool owns. */
  function Objects(p: Pool): set<ObjId>
  {
    set i | 0 <= i < |p.slots| :: p.slots[i].obj
  }

  /** `goon_pool_create`: a requested capacity of 0 stands for the default. */
  function Create(capacity: nat): (p: Pool)
    ensures Valid(p) && p.slots == []
    ensures p.capacity == if capacity == 0 then DefaultCapacity else capacity
  {
    Pool([], if capacity > 0 then capacity else DefaultCapacity)
  }

  /** The first slot not in use. */
  function FirstFree(ss: seq<Slot>): Option<nat>
  {
    FirstIndex(ss, (s: Slot) => s.inUse, false)
  }

  /** The first slot holding `obj`. */
  function SlotOf(ss: seq<Slot>, obj: ObjId): Option<nat>
  {
    FirstIndex(ss, (s: Slot) => s.obj, obj)
  }

  /** `goon_pool_acquire`: hands out the first free slot's object whatever its
      allocation size; failing that, allocates `newObj` with the size hint while
      there is room; otherwise returns nothing. */
  function Acquire(p: Pool, sizeHint: nat, newObj: ObjId): (r: (Pool, Option<ObjId>))
    requires Valid(p) && newObj !in Objects(p)
    ensures Valid(r.0) && r.0.capacity == p.capacity
    // a reused object was free, and is the first free one; only its flag changes
    ensures (exists i :: 0 <= i < |p.slots| && !p.slots[i].inUse) ==>
              exists i :: 0 <= i < |p.slots| && !p.slots[i].inUse
                          && (forall j :: 0 <= j < i ==> p.slots[j].inUse)
                          && r.1 == Some(p.slots[i].obj)
                          && r.0.slots == p.slots[i := p.slots[i].(inUse := true)]
    // a fresh object is allocated only when every slot is busy and there is room
    ensures (forall i :: 0 <= i < |p.slots| ==> p.slots[i].inUse) && |p.slots| < p.capacity ==>
              r.1 == Some(newObj) && r.0.slots == p.slots + [Slot(newObj, sizeHint, true)]
    // a full pool with every slot busy is exhausted
    ensures (forall i :: 0 <= i < |p.slots| ==> p.slots[i].inUse) && |p.slots| == p.capacity ==>
              r == (p, None)
    // the handed-out object is marked busy
    ensures r.1.Some? ==>
              && r.1.value in Objects(r.0)
              && SlotOf(r.0.slots, r.1.value).Some?
              && r.0.slots[SlotOf(r.0.slots, r.1.value).value].inUse
  {
    match FirstFree(p.slots)
    case Some(i) =>
      var ss := p.slots[i := p.slots[i].(inUse := true)];
      assert ss[i].obj == p.slots[i].obj;
      (Pool(ss, p.capacity), Some(p.slots[i].obj))
    case None =>
      if |p.slots| < p.capacity then
        var ss := p.slots + [Slot(newObj, sizeHint, true)];
        assert ss[|p.slots|].obj == newObj;
        (Pool(ss, p.capacity), Some(newObj))
      else (p, None)
  }

  /** `goon_pool_release`: clears the busy flag of the slot holding `obj`, busy or not. */
  function Release(p: Pool, obj: Option<ObjId>): (r: Step<Pool>)
    requires Valid(p)
    ensures r.code == ErrNullPtr <==> obj.None?
    ensures obj.Some? ==> (r.code == ErrNotFound <==> obj.value !in Objects(p))
    ensures r.code == Success || r.code == ErrNullPtr || r.code == ErrNotFound
    ensures r.code != Success ==> r.state == p
    ensures r.code == Success ==>
              Objects(r.state) == Objects(p) && |r.state.slots| == |p.slots|
              && forall j :: 0 <= j < |p.slots| ==>
                   r.state.slots[j] == if p.slots[j].obj == obj.value then p.slots[j].(inUse := false)
                                       else p.slots[j]
    ensures Valid(r.state)
  {
    if obj.None? then Step(p, ErrNullPtr)
    else match SlotOf(p.slots, obj.value)
      case None =>
        assert obj.value !in Objects(p);
        Step(p, ErrNotFound)
      case Some(i) =>
        var ss := p.slots[i := p.slots[i].(inUse := false)];
        assert forall j :: 0 <= j < |ss| ==> ss[j].obj == p.slots[j].obj;
        assert Objects(Pool(ss, p.capacity)) == Objects(p);
        Step(Pool(ss, p.capacity), Success)
  }

  /** A series of acquires in order, the i-th with size hint `hints[i]` and, if
      it allocates, address `newObjs[i]`: one answer per request. */
  function AcquireAll(p: Pool, hints: seq<nat>, newObjs: seq<ObjId>): (r: (Pool, seq<Option<ObjId>>))
    requires Valid(p) && |hints| == |newObjs|
    requires forall i :: 0 <= i < |newObjs| ==> newObjs[i] !in Objects(p)
    requires forall i, j :: 0 <= i < j < |newObjs| ==> newObjs[i] != newObjs[j]
    ensures Valid(r.0) && r.0.capacity == p.capacity && |r.1| == |newObjs|
    decreases |newObjs|
  {
    if |newObjs| == 0 then (p, [])
    else
      var a := Acquire(p, hints[0], newObjs[0]);
      assert forall i :: 1 <= i < |newObjs| ==> newObjs[i] !in Objects(a.0) by {
        assert Objects(a.0) <= Objects(p) + {newObjs[0]} by {
          forall x | x in Objects(a.0) ensures x in Objects(p) + {newObjs[0]} {
            var k :| 0 <= k < |a.0.slots| && a.0.slots[k].obj == x;
            if k < |p.slots| {
              assert a.0.slots[k].obj == p.slots[k].obj;
            }
          }
        }
      }
      var rest := AcquireAll(a.0, hints[1..], newObjs[1..]);
      (rest.0, [a.1] + rest.1)
  }

  /** With no release in between, a pool that starts with every slot busy grows
      by one fresh object per acquire until it is full, handing out exactly the
      new addresses; a further acquire then fails. */
  lemma {:induction false} BusyPoolFillsThenRefuses(p: Pool, hints: seq<nat>, newObjs: seq<ObjId>)
    requires Valid(p) && |hints| == |newObjs| && |p.slots| + |newObjs| == p.capacity
    requires forall i :: 0 <= i < |p.slots| ==> p.slots[i].inUse
    requires forall i :: 0 <= i < |newObjs| ==> newObjs[i] !in Objects(p)
    requires forall i, j :: 0 <= i < j < |newObjs| ==> newObjs[i] != newObjs[j]
    ensures var r := AcquireAll(p, hints, newObjs);
            && (forall i :: 0 <= i < |newObjs| ==> r.1[i] == Some(newObjs[i]))
            && |r.0.slots| == r.0.capacity
            && (forall i :: 0 <= i < |r.0.slots| ==> r.0.slots[i].inUse)
    ensures forall hint: nat, obj: ObjId :: obj !in Objects(AcquireAll(p, hints, newObjs).0) ==>
              Acquire(AcquireAll(p, hints, newObjs).0, hint, obj).1.None?
    decreases |newObjs|
  {
    if |newObjs| > 0 {
      var a := Acquire(p, hints[0], newObjs[0]);
      assert a.0.slots == p.slots + [Slot(newObjs[0], hints[0], true)];
      BusyPoolFillsThenRefuses(a.0, hints[1..], newObjs[1..]);
      var rest := AcquireAll(a.0, hints[1..], newObjs[1..]);
      assert AcquireAll(p, hints, newObjs) == (rest.0, [a.1] + rest.1);
    }
  }

  /** Releasing an object and acquiring again, with no other free slot before it,
      hands the same object back. */
  lemma ReleaseThenAcquire(p: Pool, obj: ObjId, hint: nat, newObj: ObjId)
    requires Valid(p) && obj in Objects(p) && newObj !in Objects(p)
    requires forall j :: 0 <= j < |p.slots| && p.slots[j].obj != obj ==> p.slots[j].inUse
    ensures Acquire(Release(p, Some(obj)).state, hint, newObj).1 == Some(obj)
  {
    var q := Release(p, Some(obj)).state;
    var i :| 0 <= i < |p.slots| && p.slots[i].obj == obj;
    assert !q.slots[i].inUse;
  }

  /** The size hint is not checked on reuse: an object allocated small can be
      handed to a caller that asked for more. */
  lemma ReuseIgnoresSizeHint()
    ensures var p := Pool([Slot(7, 1, false)], 4);
            var r := Acquire(p, 100, 8);
            r.1 == Some(7) && r.0.slots[0].allocSize < 100
  {
    var p := Pool([Slot(7, 1, false)], 4);
    assert p.slots[0].obj == 7;
    assert Objects(p) == {7};
  }
}

=== FILE: queue.dfy ===
/** The bounded FIFO event queue (`goon_queue_*`). The intrusive linked list is a
    sequence whose first element is the head. */
module Queues {
  import opened Wrappers
  import opened Codes
  import opened Events

  const DefaultMaxSize: nat := 1024

  datatype Queue = Queue(events: seq<Event>, maxSize: nat)

  /** The capacity is positive and never exceeded. */
  predicate Valid(q: Queue)
  {
    0 < q.maxSize && |q.events| <= q.maxSize
  }

  /** `goon_queue_size`. */
  function Size(q: Queue): (n: nat)
    ensures n == |q.events|
    ensures Valid(q) ==> n <= q.maxSize
  {
    |q.events|
  }

  /** `goon_queue_is_empty`: true exactly when a pop would return nothing. */
  function IsEmpty(q: Queue): (b: bool)
    ensures b <==> Pop(q).1.None?
  {
    |q.events| == 0
  }

  /** `goon_queue_create`: a requested capacity of 0 stands for the default. */
  function Create(maxSize: nat): (q: Queue)
    ensures Valid(q) && q.events == []
    ensures q.maxSize == if maxSize == 0 then DefaultMaxSize else maxSize
  {
    Queue([], if maxSize > 0 then maxSize else DefaultMaxSize)
  }

  /** `goon_queue_push`: refused with an overflow code when the queue is full,
      otherwise the event joins the tail. */
  function Push(q: Queue, e: Event): (r: Step<Queue>)
    ensures r.code == Success || r.code == ErrOverflow
    ensures r.code == ErrOverflow <==> |q.events| >= q.maxSize
    ensures r.code == ErrOverflow ==> r.state == q
    ensures r.code == Success ==> r.state.events == q.events + [e] && r.state.maxSize == q.maxSize
    ensures Valid(q) ==> Valid(r.state)
  {
    if |q.events| >= q.maxSize then Step(q, ErrOverflow)
    else Step(q.(events := q.events + [e]), Success)
  }

  /** `goon_queue_pop`: the head event, or nothing from an empty queue. */
  function Pop(q: Queue): (r: (Queue, Option<Event>))
    ensures q.events == [] ==> r.1.None? && r.0 == q
    ensures q.events != [] ==> r.1 == Some(q.events[0]) && [r.1.value] + r.0.events == q.events
    ensures r.0.maxSize == q.maxSize
    ensures Valid(q) ==> Valid(r.0)
  {
    if |q.events| == 0 then (q, None)
    else (q.(events := q.events[1..]), Some(q.events[0]))
  }

  /** A client's use of one queue: pushes and pops in any interleaving. */
  datatype Op = PushOp(e: Event) | PopOp

  /** Replays `ops` on `q`: the final queue, the events the queue accepted, and the
      events the pops returned, each in order. */
  function Run(q: Queue, ops: seq<Op>): (Queue, seq<Event>, seq<Event>)
    decreases |ops|
  {
    if |ops| == 0 then (q, [], [])
    else
      match ops[0]
      case PushOp(e) =>
        var p := Push(q, e);
        var rest := Run(p.state, ops[1..]);
        (rest.0, (if p.code == Success then [e] else []) + rest.1, rest.2)
      case PopOp =>
        var p := Pop(q);
        var rest := Run(p.0, ops[1..]);
        (rest.0, rest.1, (if p.1.Some? then [p.1.value] else []) + rest.2)
  }

  /** FIFO: what was queued plus what was accepted is exactly what was popped
      followed by what is still queued. From an empty queue, the events come out
      in the order they went in. */
  lemma {:induction false} RunIsFifo(q: Queue, ops: seq<Op>)
    ensures var r := Run(q, ops); q.events + r.1 == r.2 + r.0.events
    decreases |ops|
  {
    if |ops| > 0 {
      match ops[0]
      case PushOp(e) =>
        var p := Push(q, e);
        var rest := Run(p.state, ops[1..]);
        RunIsFifo(p.state, ops[1..]);
        var acc := if p.code == Success then [e] else [];
        assert Run(q, ops) == (rest.0, acc + rest.1, rest.2);
        assert p.state.events == q.events + acc;
        ShiftLeft(q.events, acc, rest.1, rest.2 + rest.0.events);
      case PopOp =>
        var p := Pop(q);
        var rest := Run(p.0, ops[1..]);
        RunIsFifo(p.0, ops[1..]);
        var out := if p.1.Some? then [p.1.value] else [];
        assert Run(q, ops) == (rest.0, rest.1, out + rest.2);
        assert q.events == out + p.0.events;
        ShiftRight(out, p.0.events, rest.1, rest.2, rest.0.events);
    }
  }

  /** Regrouping for the push step of `RunIsFifo`. */
  lemma ShiftLeft<T>(xs: seq<T>, a: seq<T>, ys: seq<T>, zs: seq<T>)
    requires (xs + a) + ys == zs
    ensures xs + (a + ys) == zs
  {
    assert (xs + a) + ys == xs + (a + ys);
  }

  /** Regrouping for the pop step of `RunIsFifo`. */
  lemma ShiftRight<T>(o: seq<T>, xs: seq<T>, ys: seq<T>, zs: seq<T>, ws: seq<T>)
    requires xs + ys == zs + ws
    ensures (o + xs) + ys == (o + zs) + ws
  {
    calc {
      (o + xs) + ys;
      o + (xs + ys);
      o + (zs + ws);
      (o + zs) + ws;
    }
  }

  /** A valid queue never holds more than its capacity, whatever the client does. */
  lemma {:induction false} RunKeepsBound(q: Queue, ops: seq<Op>)
    requires Valid(q)
    ensures Valid(Run(q, ops).0)
    decreases |ops|
  {
    if |ops| > 0 {
      match ops[0]
      case PushOp(e) => RunKeepsBound(Push(q, e).state, ops[1..]);
      case PopOp => RunKeepsBound(Pop(q).0, ops[1..]);
    }
  }


  /** A queue of capacity 2 takes two events, refuses a third, hands back the
      first, and then has room for the third. */
  lemma CapacityTwoScenario(e1: Event, e2: Event, e3: Event)
    ensures var p1 := Push(Create(2), e1);
            var p2 := Push(p1.state, e2);
            var p3 := Push(p2.state, e3);
            var popped := Pop(p2.state);
            && p1.code == Success && p2.code == Success && p3.code == ErrOverflow
            && popped.1 == Some(e1)
            && Push(popped.0, e3).code == Success
  {
  }
}

=== FILE: registry.dfy ===
/** The handler registry: the context's intrusive list as a sequence whose first
    element is the head, i.e. the most recently registered handler. */
module Registry {
  import opened Wrappers
  import opened Search
  import opened Handlers

  /** The first handler named `name`, scanning from the head. */
  function IndexOf(hs: seq<Handler>, name: string): Option<nat>
  {
    FirstIndex(hs, (h: Handler) => h.name, name)
  }

  /** `goon_context_register_handler`: the handler becomes the new head; names
      are not checked for duplicates. */
  function Register(hs: seq<Handler>, h: Handler): (r: seq<Handler>)
    ensures |r| == |hs| + 1 && r[0] == h && r[1..] == hs
  {
    [h] + hs
  }

  /** `goon_context_find_handler`: the first name match from the head. */
  function Find(hs: seq<Handler>, name: string): (r: Option<Handler>)
    ensures r.None? <==> forall j :: 0 <= j < |hs| ==> hs[j].name != name
    ensures r.Some? ==> exists i :: 0 <= i < |hs| && hs[i] == r.value && r.value.name == name
                                    && forall j :: 0 <= j < i ==> hs[j].name != name
  {
    match IndexOf(hs, name)
    case None => None
    case Some(i) => Some(hs[i])
  }

  /** `goon_context_unregister_handler`: unlinks only the first match, keeping
      the rest in order; `None` when no handler has the name. */
  function Unregister(hs: seq<Handler>, name: string): (r: Option<seq<Handler>>)
    ensures r.None? <==> Find(hs, name).None?
    ensures r.Some? ==> |r.value| == |hs| - 1
    ensures r.Some? ==> exists i :: 0 <= i < |hs| && hs[i].name == name
                                    && (forall j :: 0 <= j < i ==> hs[j].name != name)
                                    && r.value == hs[..i] + hs[i + 1..]
  {
    match IndexOf(hs, name)
    case None => None
    case Some(i) => Some(hs[..i] + hs[i + 1..])
  }

  /** `goon_handler_enable(goon_context_find_handler(ctx, name))` and its
      `disable` twin: sets the flag of the first match; `None` (the NULL handler)
      when no handler has the name. */
  function SetEnabledByName(hs: seq<Handler>, name: string, on: bool): (r: Option<seq<Handler>>)
    ensures r.None? <==> Find(hs, name).None?
    ensures r.Some? ==> |r.value| == |hs|
    ensures r.Some? ==> exists i :: 0 <= i < |hs| && hs[i].name == name
                                    && (forall j :: 0 <= j < i ==> hs[j].name != name)
                                    && r.value == hs[i := SetEnabled(hs[i], on)]
  {
    match IndexOf(hs, name)
    case None => None
    case Some(i) => Some(hs[i := SetEnabled(hs[i], on)])
  }

  /** The handler registered last is the one found first. */
  lemma FindAfterRegister(hs: seq<Handler>, h: Handler)
    ensures Find(Register(hs, h), h.name) == Some(h)
  {
    assert IndexOf([h] + hs, h.name) == Some(0);
  }

  /** Unregistering the name of the handler just registered gives back the
      registry as it was, even when an older handler has the same name. */
  lemma UnregisterUndoesRegister(hs: seq<Handler>, h: Handler)
    ensures Unregister(Register(hs, h), h.name) == Some(hs)
  {
    var r := [h] + hs;
    assert IndexOf(r, h.name) == Some(0);
    assert r[..0] + r[1..] == hs;
  }

  /** Registering `a` then `b` puts `b` ahead of `a`: dispatch visits the most
      recently registered handler first. */
  lemma RegistrationOrder(hs: seq<Handler>, a: Handler, b: Handler)
    ensures Register(Register(hs, a), b) == [b, a] + hs
  {
  }
}

=== FILE: search.dfy ===
/** The linear scans the C code repeats for each table: walk from the front and
    stop at the first element whose key matches. */
module Search {
  import opened Wrappers

  /** The position of the first element of `xs` whose `key` is `k`, or `None`
      when there is none. */
  function FirstIndex<T, K(==)>(xs: seq<T>, key: T -> K, k: K): (r: Option<nat>)
    ensures r.Some? ==> r.value < |xs| && key(xs[r.value]) == k
    ensures r.Some? ==> forall j :: 0 <= j < r.value ==> key(xs[j]) != k
    ensures r.None? ==> forall j :: 0 <= j < |xs| ==> key(xs[j]) != k
    decreases |xs|
  {
    if |xs| == 0 then None
    else if key(xs[0]) == k then Some(0)
    else match FirstIndex(xs[1..], key, k)
      case None => None
      case Some(i) => Some(i + 1)
  }
}

=== FILE: stack.dfy ===
/** The fixed-capacity LIFO stack (`goon_stack_*`). The item array is a sequence
    whose last element is the top. */
module Stacks {
  import opened Wrappers
  import opened Codes

  const DefaultCapacity: nat := 512

  datatype Stack<T> = Stack(items: seq<T>, capacity: nat)

  /** The capacity is positive and never exceeded. */
  predicate Valid<T>(s: Stack<T>)
  {
    0 < s.capacity && |s.items| <= s.capacity
  }

  /** `goon_stack_size`. */
  function Size<T>(s: Stack<T>): (n: nat)
    ensures n == |s.items|
    ensures Valid(s) ==> n <= s.capacity
  {
    |s.items|
  }

  /** `goon_stack_is_empty`: true exactly when a pop would return nothing. The
      C stack also accepts NULL items, whose pop returns NULL from a stack that
      was not empty; the model's items are never NULL. */
  function IsEmpty<T>(s: Stack<T>): (b: bool)
    ensures b <==> Pop(s).1.None?
  {
    |s.items| == 0
  }

  /** `goon_stack_create`: a requested capacity of 0 stands for the default. */
  function Create<T>(capacity: nat): (s: Stack<T>)
    ensures Valid(s) && s.items == []
    ensures s.capacity == if capacity == 0 then DefaultCapacity else capacity
  {
    Stack([], if capacity > 0 then capacity else DefaultCapacity)
  }

  /** `goon_stack_push`: refused with an overflow code when full, otherwise the
      item becomes the new top. */
  function Push<T>(s: Stack<T>, x: T): (r: Step<Stack<T>>)
    ensures r.code == Success || r.code == ErrOverflow
    ensures r.code == ErrOverflow <==> |s.items| >= s.capacity
    ensures r.code == ErrOverflow ==> r.state == s
    ensures r.code == Success ==> r.state.items == s.items + [x] && r.state.capacity == s.capacity
    ensures Valid(s) ==> Valid(r.state)
  {
    if |s.items| >= s.capacity then Step(s, ErrOverflow)
    else Step(s.(items := s.items + [x]), Success)
  }

  /** `goon_stack_pop`: removes and returns the top, or nothing from an empty stack. */
  function Pop<T>(s: Stack<T>): (r: (Stack<T>, Option<T>))
    ensures s.items == [] ==> r == (s, None)
    ensures s.items != [] ==> r.1 == Some(s.items[|s.items| - 1]) && r.0.items + [r.1.value] == s.items
    ensures r.0.capacity == s.capacity
    ensures Valid(s) ==> Valid(r.0)
  {
    if |s.items| == 0 then (s, None)
    else (s.(items := s.items[..|s.items| - 1]), Some(s.items[|s.items| - 1]))
  }

  /** `goon_stack_peek`: the top without removing it. */
  function Peek<T>(s: Stack<T>): (r: Option<T>)
    ensures r == Pop(s).1
  {
    if |s.items| == 0 then None else Some(s.items[|s.items| - 1])
  }

  /** LIFO: a pop right after a successful push returns the pushed item and gives
      back the stack as it was. */
  lemma PopUndoesPush<T>(s: Stack<T>, x: T)
    requires |s.items| < s.capacity
    ensures Push(s, x).code == Success
    ensures Pop(Push(s, x).state) == (s, Some(x))
  {
    assert (s.items + [x])[..|s.items|] == s.items;
  }
}

=== FILE: text.dfy ===
/** Bounded C strings. Every name and key is copied with
    `strncpy(dst, src, GOON_MAX_NAME_LEN - 1)` into a fixed buffer, which keeps
    at most 127 characters. Strings are modelled as NUL-free character sequences;
    the end of the sequence plays the part of the terminating NUL. One character
    stands for one byte of the C string. */
module Text {

  const MaxNameLen: nat := 128
  const BufferSize: nat := 4096

  newtype byte = b: int | 0 <= b < 256

  /** The first `limit` characters of `s`, or all of `s` when it is shorter. */
  function Clip(s: string, limit: nat): (r: string)
    ensures |r| <= limit
    ensures r <= s
    ensures |s| <= limit ==> r == s
    ensures |s| > limit ==> r == s[..limit]
  {
    if |s| <= limit then s else s[..limit]
  }

  /** What a `char[GOON_MAX_NAME_LEN]` buffer keeps of `s`. */
  function Bounded(s: string): (r: string)
    ensures |r| < MaxNameLen
    ensures r <= s
    ensures |s| < MaxNameLen ==> r == s
    ensures |s| >= MaxNameLen ==> r == s[..MaxNameLen - 1]
  {
    Clip(s, MaxNameLen - 1)
  }

  /** A name that was already cut is copied as it is. */
  lemma BoundedIdempotent(s: string)
    ensures Bounded(Bounded(s)) == Bounded(s)
  {
  }

  /** The character C reads at position `i`: past the end it meets the NUL. */
  function At(s: string, i: nat): char
  {
    if i < |s| then s[i] else '\0'
  }

  predicate NulFree(s: string)
  {
    forall i :: 0 <= i < |s| ==> s[i] != '\0'
  }

  /** `strncmp(a, b, n) == 0`: the first `n` characters agree, where a comparison
      stops early, successfully, once both strings have ended. */
  function StrNEqual(a: string, b: string, n: nat): bool
    decreases n
  {
    if n == 0 then true
    else if At(a, 0) != At(b, 0) then false
    else if At(a, 0) == '\0' then true
    else StrNEqual(a[1..], b[1..], n - 1)
  }

  /** `strncmp(name, prefix, strlen(prefix)) == 0` holds exactly when `prefix`
      is a prefix of `name`. */
  lemma {:induction false} StrNEqualIsPrefix(name: string, prefix: string)
    requires NulFree(name) && NulFree(prefix)
    ensures StrNEqual(name, prefix, |prefix|) <==> prefix <= name
    decreases |prefix|
  {
    if |prefix| == 0 {
    } else if |name| == 0 {
      assert At(name, 0) == '\0' && At(prefix, 0) != '\0';
    } else if name[0] != prefix[0] {
      assert !(prefix <= name);
    } else {
      assert At(name, 0) != '\0';
      StrNEqualIsPrefix(name[1..], prefix[1..]);
      assert prefix <= name <==> prefix[1..] <= name[1..];
    }
  }
}

=== FILE: worker.dfy ===
/** The worker: a synchronous driver that drains its context on every tick and
    counts the ticks. */
module Workers {
  import opened Wrappers
  import Codes
  import Contexts
  import Events
  import Dispatch

  datatype Worker = Worker(ctx: Contexts.Context, running: bool, iterations: nat)

  /** `goon_worker_create`: needs a context; a new worker is not running. */
  function Create(ctx: Option<Contexts.Context>): (r: Option<Worker>)
    ensures r.None? <==> ctx.None?
    ensures r.Some? ==> r.value.ctx == ctx.value && !r.value.running && r.value.iterations == 0
  {
    if ctx.None? then None else Some(Worker(ctx.value, false, 0))
  }

  /** `goon_worker_start`: marks the worker running and starts its context. */
  function Start(w: Worker): (r: Codes.Step<Worker>)
    ensures r.code == Codes.Success && r.state.running && r.state.ctx.state == Contexts.Running
    ensures r.state.ctx == w.ctx.(state := Contexts.Running) && r.state.iterations == w.iterations
  {
    Codes.Step(w.(running := true, ctx := Contexts.Start(w.ctx).state), Codes.Success)
  }

  /** `goon_worker_stop`: marks the worker stopped and calls `goon_stop` as
      written, which sets STOPPING before it asks for the drain. The drain is
      refused, so only the context's state changes. */
  function Stop(w: Worker, now: int): (r: Codes.Step<Worker>)
    requires Contexts.Valid(w.ctx)
    ensures r.code == Codes.Success && !r.state.running && r.state.iterations == w.iterations
    ensures r.state.ctx == w.ctx.(state := Contexts.Terminated)
  {
    Contexts.StopAsWrittenSkipsDrain(w.ctx, now);
    Codes.Step(w.(running := false, ctx := Contexts.StopAsWritten(w.ctx, now).state), Codes.Success)
  }

  /** `goon_worker_stop` on top of the intended `goon_stop`, which processes the
      pending events before it terminates the context. */
  function StopIntended(w: Worker, now: int): (r: Codes.Step<Worker>)
    requires Contexts.Valid(w.ctx)
    ensures r.code == Codes.Success && !r.state.running && r.state.iterations == w.iterations
    ensures r.state.ctx.state == Contexts.Terminated && r.state.ctx.queue.events == []
    ensures r.state.ctx.totalProcessed == w.ctx.totalProcessed + |w.ctx.queue.events|
    ensures |r.state.ctx.handlers| == |w.ctx.handlers|
    ensures forall i :: 0 <= i < |w.ctx.handlers| ==>
              Dispatch.Advanced(w.ctx.handlers[i], r.state.ctx.handlers[i], w.ctx.queue.events)
    ensures r.state.ctx.queue.maxSize == w.ctx.queue.maxSize
    ensures r.state.ctx == w.ctx.(state := Contexts.Terminated, handlers := r.state.ctx.handlers,
                                  queue := r.state.ctx.queue, cache := r.state.ctx.cache,
                                  totalProcessed := r.state.ctx.totalProcessed)
  {
    Codes.Step(w.(running := false, ctx := Contexts.Stop(w.ctx, now).state), Codes.Success)
  }

  /** A worker stopped with one event pending leaves it queued and unprocessed;
      the intended stop processes it. */
  lemma StopLeavesPendingEvent(w: Worker, e: Events.Event, now: int)
    requires Contexts.Valid(w.ctx) && w.ctx.queue.events == [e]
    ensures Stop(w, now).state.ctx.queue.events == [e]
    ensures Stop(w, now).state.ctx.totalProcessed == w.ctx.totalProcessed
    ensures StopIntended(w, now).state.ctx.queue.events == []
    ensures StopIntended(w, now).state.ctx.totalProcessed == w.ctx.totalProcessed + 1
  {
  }

  /** `goon_worker_tick`: a worker that is not running refuses; otherwise it asks
      its context to process events, counts the tick whatever the answer, and
      passes the answer on. */
  function Tick(w: Worker, now: int): (r: Codes.Step<Worker>)
    requires Contexts.Valid(w.ctx)
    ensures !w.running ==> r == Codes.Step(w, Codes.Error)
    ensures w.running ==>
              && r.state.iterations == w.iterations + 1
              && r.state.running
              && r.state.ctx == Contexts.ProcessEvents(w.ctx, now).state
              && r.code == Contexts.ProcessEvents(w.ctx, now).code
    ensures Contexts.Valid(r.state.ctx)
  {
    if !w.running then Codes.Step(w, Codes.Error)
    else
      var p := Contexts.ProcessEvents(w.ctx, now);
      Codes.Step(w.(ctx := p.state, iterations := w.iterations + 1), p.code)
  }

  /** A started worker's tick drains the whole queue and returns its length. */
  lemma TickAfterStartDrains(w: Worker, now: int)
    requires Contexts.Valid(w.ctx)
    ensures var s := Start(w).state;
            var t := Tick(s, now);
            t.code == |w.ctx.queue.events| && t.state.ctx.queue.events == []
            && t.state.iterations == w.iterations + 1
  {
  }

  /** A running worker whose context was paused still counts the tick, but the
      context refuses, and the tick reports the context's error. */
  lemma TickOnPausedContext(w: Worker, now: int)
    requires Contexts.Valid(w.ctx) && w.running && w.ctx.state == Contexts.Paused
    ensures Tick(w, now) == Codes.Step(w.(iterations := w.iterations + 1), Codes.Error)
  {
  }
}

=== FILE: wrappers.dfy ===
/** Optional values: a C pointer that may be NULL, or a lookup that may miss. */
module Wrappers {

  datatype Option<+T> = None | Some(value: T)
}
